=== FILE: README.md ===
# medvis3d in Dafny

A model of the logic inside medvis3d, a browser viewer for NIfTI medical
volumes. The viewer shows a CT volume and a segmentation overlay in a 2D
slice view and a 3D volume rendering. The repository also holds
`RecordingPanel`, a component that exports keyframed camera animations as
numbered TGA frames. No part of the application mounts it: `App` neither
imports it nor gives the 3D view a handle. The camera, capture and
quality-mode handles `record` uses are whatever a host would pass in. The
model covers the parts of the viewer that compute rather than draw:

- **Tga**: the frame encoder `encodeTGA`. It writes the 18-byte header of an
  uncompressed 32-bit true-colour image (Truevision TGA File Format
  Specification, version 2.0: image type 2, 32 bits per pixel, image
  descriptor 0x28) and the pixel body with red and blue swapped. A reference
  decoder is the partner that proves the round trip.
- **Labels**: the per-voxel transforms of a segmentation buffer:
  `computeMinMax`, `extractUniqueLabels`, `buildBinaryMask` and
  `clamp01Array`. Non-finite numbers are a tagged case in `computeMinMax`
  and `clamp01Array`.
- **Keyframes**: the recording panel's keyframe sampler (`lerp`, `lerp3`,
  `sampleAtTime`, the time sort, `addKeyframe`) and the slice clamp that
  applies a sample. The cosine easing is a parameter that is only assumed
  to map 0 to 0, 1 to 1 and [0, 1] into [0, 1].
- **Recording**: the export `record` runs: the frame count, the frame
  times, the `frame_NNNNN.tga` names, and the loop. Each frame is sampled,
  the camera moves, the view is captured and encoded, and the file is
  written, in frame order, stopping at the first failure.
- **Quality**: the 3D view's render settings per mode
  (`get3DSettingsForMode`) and the render size. It also holds the
  interaction state machine: the high-performance toggle, camera-modified
  events, the 100 ms idle timer, and `applyQualityMode`. Two geometry
  helpers live here too: `getWorldZAtSlice` and the turbo control points.
- **App**: the application state. This covers volume upload (slice range
  and reset token) and segmentation upload, including the dimension check
  and the probabilistic/discrete branch. It also covers label toggling with
  its overlay rebuild, the overlay colour map, and the opacity clamps.
- **Controls**: the control panel's arithmetic: the slider range, the
  displayed slice, wheel stepping, and the label list cap.
- **View2D**: the 2D view's arithmetic: axis choices, wheel stepping, the
  camera fit, the categorical label palette, and the overlay opacity
  function.
- **Basics**: shared vocabulary (`Option`, vectors, geometry, `Math.round`,
  the clamps).

Rendering is not modelled. Applying a render mode appends it to a log kept
by the controller: the log records which mode `applySettingsForMode` was
called with, not which settings reached the mappers. A camera move during an export is a camera-modified
event whose animation-frame body runs at once. A capture is a function of
what the view shows. A file write is a success flag per file name, and the
file itself is appended to a sequence.

Where the code and its comments or intent differ, the model follows the
code:

- The comment at src/components/Volume3DView.tsx:97 says idle
  high-performance rendering is the same as quality mode. It differs in the
  sample distance: 0.25 against 0.1 times the largest spacing
  (`Quality.StillVersusQuality`).
- The high-performance toggle neither cancels the pending idle timer nor
  clears the interacting flag. A timer armed before switching off still
  applies the still settings afterwards (`Quality.StaleTimerAfterSwitchOff`).
- `record` calls `applyQualityMode`, but every camera move it makes is a
  camera-modified event. With high performance on and the view idle, each
  frame is therefore captured after a call for the interaction mode
  (`Recording.ExportMode`, `Recording.CameraMoveDuringExport`). The
  interaction mode's 0.75 render scale does not reach the frame:
  `captureRGBA` sets the render window to the output size before it renders
  (src/components/Volume3DView.tsx:210-213). Which mapper settings a call
  reaches depends on the render whose closure it runs in; see
  `Quality.Step` under "Left out".
- A segmentation refused for mismatched dimensions is still stored as the
  file that the selection-change effect re-reads. A later label toggle
  builds an overlay from it anyway (`App.RefusedFileIsReread`).
- The segmentation handler checks dimensions against the volume of the
  render in which the upload started. A volume whose load finishes while the
  segmentation is still loading is not checked, and a mismatched overlay is
  built (`App.VolumeLoadedMeanwhileIsNotChecked`).
- The application never passes `sliceAxis` to the 2D view. With it unset,
  the view slices along K, but the camera looks along I and the fit spans
  the sliced dimension (`View2D.UnsetAxisDisagrees`).
- The displayed slice `Math.min(sliceIndex, clampedMax)` is capped above
  only (`Controls.DisplayedSlice`).

## Model

| member | source | states |
|---|---|---|
| Basics.Max3 | src/components/Volume3DView.tsx:85 | `Math.max(...spacing)` is at least each component and equals one of them |
| Basics.Round | src/utils/nifti.ts:112 | `Math.round` lies within one half of its argument |
| Basics.ClampInt | src/components/Volume3DView.tsx:787 | the integer clamp stays in [lo, hi], leaves values inside unchanged, and saturates at either end |
| Basics.Clamp01 | src/components/Controls.tsx:69 | `Math.min(1, Math.max(0, v))` is in [0, 1], keeps values inside, and maps below 0 to 0 and above 1 to 1 |
| Basics.RoundBetween | src/components/RecordingPanel.tsx:98 | rounding a value between two integers stays between them |
| Tga.RgbaAt | src/utils/tga.ts:32-35 | each pixel reads four channels of the source buffer |
| Tga.Swap | src/utils/tga.ts:30-40 | the stored pixel is blue, green, red, alpha: bytes 0 and 2 of the source pixel exchanged, 1 and 3 kept |
| Tga.LittleEndian16 | src/utils/tga.ts:20-24 | the bytes `n & 0xff` and `(n >> 8) & 0xff` read back little-endian as `n mod 65536` |
| Tga.Header | src/utils/tga.ts:10-26 | the header is 18 bytes long |
| Tga.HeaderLayout | src/utils/tga.ts:11-26 | its bytes are 0, 0, 2, nine zeros, width and height little-endian mod 65536, then 32 and 0x28 |
| Tga.HeaderFields | src/utils/tga.ts:11-26 | for dimensions below 65536 the header carries exactly the fixed bytes and the two dimensions |
| Tga.Body | src/utils/tga.ts:28-29 | the body holds 4 bytes per pixel of `width * height` |
| Tga.BodyPixels | src/utils/tga.ts:30-41 | body pixel i is source pixel i with red and blue exchanged: order kept, no row flip |
| Tga.EncodeBytes | src/utils/tga.ts:43-45 | the output is `18 + 4 * width * height` bytes |
| Tga.EncodeLayout | src/utils/tga.ts:43-45 | the output splits into the header as its first 18 bytes and the body after them |
| Tga.EncodeTga | src/utils/tga.ts:9-46 | the source's per-pixel loop builds exactly the encoded image, with the width and height passed in |
| Tga.Decode | src/utils/tga.ts:10-29 | the reference reader accepts only a data length equal to the header's declared size |
| Tga.UnBody | src/utils/tga.ts:30-40 | the reference reader takes red from byte 2 and blue from byte 0 of each stored pixel, keeping the body's length |
| Tga.FromBgraSwap | src/utils/tga.ts:30-40 | a swapped pixel read back as B,G,R,A is the source pixel |
| Tga.Pixels | src/utils/tga.ts:31-35 | the first n source pixels are 4n bytes |
| Tga.SwapInvolution | src/utils/tga.ts:37-40 | swapping red and blue twice restores the pixel |
| Tga.UnBodyOfBody | src/utils/tga.ts:30-41 | un-swapping the body gives back the source pixels it was built from |
| Tga.PixelsIsPrefix | src/utils/tga.ts:32-35 | for a buffer holding every pixel, the pixels read are its prefix |
| Tga.DecodeFramed | src/utils/tga.ts:43-45 | a header followed by a body of its declared size decodes to its dimensions and the un-swapped body |
| Tga.DecodeEncode | src/utils/tga.ts:9-46 | decoding an encoded frame returns its width, height and the source RGBA prefix |
| Labels.ComputeMinMax | src/utils/nifti.ts:94-103 | every non-NaN element lies in [min, max], both bounds are attained when one exists, and an empty or all-NaN buffer gives (+Infinity, -Infinity) |
| Labels.LabelSetSnoc | src/utils/nifti.ts:111-114 | one more voxel adds its rounded value to the label set exactly when it counts |
| Labels.Insert | src/utils/nifti.ts:114 | adding a label keeps the catalogue strictly ascending, and its contents are the old contents plus that label |
| Labels.Scan | src/utils/nifti.ts:110-116 | the scan's labels are ascending, at most `maxUnique + 1`, and equal the label set of a prefix that is the whole buffer unless the cap was exceeded |
| Labels.ExtractUniqueLabels | src/utils/nifti.ts:105-118 | the catalogue is strictly ascending; each label is a rounded voxel; 0 is excluded on request; at most `maxUnique + 1` labels; complete when within the cap |
| Labels.CatalogueFacts | src/utils/nifti.ts:111-117 | labels of a prefix are admitted rounded voxels, and a catalogue within the cap holds every admitted voxel value |
| Labels.BinaryMask | src/utils/nifti.ts:120-130 | the mask keeps the length, every value is 0 or 1, and a voxel is 1 iff its rounded value is selected |
| Labels.MaskMonotone | src/utils/nifti.ts:124-128 | selecting more labels never clears a voxel |
| Labels.Clamp01Value | src/utils/nifti.ts:135-144 | non-finite gives 0; values in [0, 1] are kept; negatives give 0; integers in (1, 255] give v/255; other values above 1 give 1 |
| Labels.Clamp01Array | src/utils/nifti.ts:132-147 | the array clamp keeps the length and clamps every voxel into [0, 1] |
| Labels.Clamp01Idempotent | src/utils/nifti.ts:139-144 | clamping a clamped value changes nothing |
| Labels.Clamp01NotMonotone | src/utils/nifti.ts:139-143 | the byte heuristic maps 1.5 to 1 but the larger 2 to 2/255 |
| Keyframes.Lerp | src/components/RecordingPanel.tsx:20 | for a weight in [0, 1] the result lies between the endpoints, and weights 0 and 1 give them exactly |
| Keyframes.ScaleBetween | src/components/RecordingPanel.tsx:20 | a weight in [0, 1] scales a difference towards zero |
| Keyframes.Lerp3 | src/components/RecordingPanel.tsx:21-23 | componentwise interpolation stays in the box of the endpoints and meets them at 0 and 1 |
| Keyframes.InsertByTime | src/components/RecordingPanel.tsx:48 | insertion keeps time order and adds exactly the keyframe |
| Keyframes.SortedCons | src/components/RecordingPanel.tsx:48 | a keyframe no later than a sorted list's head keeps it sorted |
| Keyframes.SortByTime | src/components/RecordingPanel.tsx:48 | the sorted copy is in time order and a permutation of the keyframes |
| Keyframes.InsertAtTime | src/components/RecordingPanel.tsx:48 | an inserted keyframe lands before every keyframe of its own time, and the others of each time keep their order |
| Keyframes.SortStable | src/components/RecordingPanel.tsx:48 | the sort is stable: for every time, the keyframes at that time keep their input order |
| Keyframes.SortSingle | src/components/RecordingPanel.tsx:48 | sorting one keyframe returns it |
| Keyframes.FindSpan | src/components/RecordingPanel.tsx:83-84 | the search stops at the first bracketing span or at the last index, and for sorted keyframes with t before the last time at a real span, so `kf[i + 1]` is in bounds |
| Keyframes.LocalT | src/components/RecordingPanel.tsx:87-88 | the local parameter is in [0, 1] inside the span, 0 for an empty span, 0 at the start and 1 at the end |
| Keyframes.SampleSorted | src/components/RecordingPanel.tsx:75-99 | no keyframes hold the live view; one is returned always; the ends clamp; inside, a bracketing pair is blended |
| Keyframes.SampleAtTime | src/components/RecordingPanel.tsx:75-100 | on the time-sorted keyframes: live view with none, the keyframe with one, the first at or before its time, the last at or after its time |
| Keyframes.InterpolateBetween | src/components/RecordingPanel.tsx:87-98 | a blended sample carries time t, and every camera component and the rounded slice lie between the bracketing keyframes |
| Keyframes.InterpolateEndpoints | src/components/RecordingPanel.tsx:87-98 | the blend equals the first keyframe at its time and the second at its time |
| Keyframes.SampleInterior | src/components/RecordingPanel.tsx:82-99 | strictly inside the time range the sample blends a bracketing pair of sorted keyframes and lies between them |
| Keyframes.MidpointExample | src/components/RecordingPanel.tsx:84-98 | half way between slices 10 and 20 with a symmetric easing the sample is slice 15 at the midpoint position |
| Keyframes.ClampSlice | src/components/RecordingPanel.tsx:105 | the applied slice is in [0, maxSlice], unchanged when already inside, 0 below 0 or when maxSlice is negative, and maxSlice above it |
| Keyframes.ApplySample | src/components/RecordingPanel.tsx:102-105 | applying a sample sets its camera and its own slice when in [0, maxSlice], pinned to 0 or maxSlice when it passes an end |
| Keyframes.AddKeyframe | src/components/RecordingPanel.tsx:50-59 | without a pose nothing changes; otherwise one keyframe is appended with the pose, the live slice and the current time when it lies in [0, durationSec], durationSec past it, and 0 before 0 or for a negative duration |
| Recording.FrameCount | src/components/RecordingPanel.tsx:118 | the frame count is at least 1 and within one half of `durationSec * framerate` |
| Recording.FrameTimeBounds | src/components/RecordingPanel.tsx:125 | frame 0 is at time 0, the last frame at the duration, and every frame within [0, duration] |
| Recording.FrameTimeMonotone | src/components/RecordingPanel.tsx:124-125 | later frames never have earlier times |
| Recording.TwentyFrames | src/components/RecordingPanel.tsx:118-125 | 2 s at 10 fps is 20 frames, 2/19 s apart, ending at 2 s |
| Recording.DigitChar | src/components/RecordingPanel.tsx:133 | a digit's character is a decimal digit |
| Recording.Decimal | src/components/RecordingPanel.tsx:133 | `String(n)` is all digits with one to five characters below 100000 |
| Recording.PadStart | src/components/RecordingPanel.tsx:133 | `padStart` keeps long strings and left-fills short ones with '0' to the width, ending in the original |
| Recording.Pad5 | src/components/RecordingPanel.tsx:133 | the padded frame number is digits, at least five, exactly five below 100000 |
| Recording.FrameName | src/components/RecordingPanel.tsx:133 | the name is "frame_", the padded number and ".tga", 15 characters below frame 100000 |
| Recording.DecimalValue | src/components/RecordingPanel.tsx:133 | `String(n)` reads back as n |
| Recording.ZerosValue | src/components/RecordingPanel.tsx:133 | a run of zeros reads as 0 |
| Recording.LeadingZerosValue | src/components/RecordingPanel.tsx:133 | leading zeros do not change a number's value |
| Recording.Pad5Value | src/components/RecordingPanel.tsx:133 | the padded frame number reads back as the frame number |
| Recording.FrameNameInjective | src/components/RecordingPanel.tsx:133-135 | two frames share a file name iff they are the same frame, so no frame overwrites another |
| Recording.FrameNameExamples | src/components/RecordingPanel.tsx:133 | frames 0 and 42 are named frame_00000.tga and frame_00042.tga |
| Recording.FrameView | src/components/RecordingPanel.tsx:125-128 | frame f shows the camera of the keyframe sample at its time and that sample's slice clamped into [0, maxSlice]; without keyframes, the live camera and slice |
| Recording.Shots | src/components/RecordingPanel.tsx:124-131 | the reference captures of the first n frames number n |
| Recording.ShotsAt | src/components/RecordingPanel.tsx:124-131 | reference capture k shows frame k's view in the export's mode |
| Recording.Files | src/components/RecordingPanel.tsx:131-138 | one reference file per captured frame |
| Recording.FilesAt | src/components/RecordingPanel.tsx:131-138 | reference file k is frame k's name with the encoding of capture k |
| Recording.SavedAt | src/components/RecordingPanel.tsx:131-138 | for saved frames, each capture succeeded and each write under its frame name succeeded |
| Recording.ExportMode | src/components/RecordingPanel.tsx:121-127 | during an export the mode last called for is interaction exactly when high performance is on and the view is not already interacting, and quality otherwise; `CameraMoveDuringExport` shows a camera move reaches it |
| Recording.CameraMoveDuringExport | src/components/RecordingPanel.tsx:121-127 | after `applyQualityMode`, a camera move leaves the view in the export's mode: interaction when high performance is on |
| Recording.ExportFrame | src/components/RecordingPanel.tsx:125-138 | one frame: the camera move is a camera-modified event; the frame is captured in the resulting mode; a file comes back iff capture and write succeed, and it is the frame's file |
| Recording.ExportStep | src/components/RecordingPanel.tsx:124-139 | one loop pass extends the captures by frame f and, on success, the files and the saved prefix by f's file |
| Recording.ExportFrames | src/components/RecordingPanel.tsx:120-139 | the loop completes with one file per frame, or fails at the first frame whose capture or write fails, having completed the writes of exactly the earlier frames in index order |
| Recording.JobPlan | src/components/RecordingPanel.tsx:118-133 | a job's plan has the job's frame count, and with keyframes every frame sets a camera |
| Recording.JobPlanOf | src/components/RecordingPanel.tsx:124-133 | a job's plan uses the job's frame views, frame names and TGA encoder |
| Recording.Record | src/components/RecordingPanel.tsx:109-147 | no folder or no keyframes: no captures, no writes, nothing changed; otherwise the export loop's outcome with the job's frame count; the recording flag is cleared on every path |
| Recording.ShotFact | src/components/RecordingPanel.tsx:125-131 | under a job's plan, capture f shows the keyframe sample at frame f's time |
| Recording.WriteFact | src/components/RecordingPanel.tsx:131-138 | under a job's plan, saved frame f was written as `frame_` f `.tga` holding `encodeTGA` of its capture |
| Recording.RecordedFrames | src/components/RecordingPanel.tsx:124-139 | an export leaves every capture showing its frame's sample and every write holding its frame's file |
| Recording.RecordedJob | src/components/RecordingPanel.tsx:109-139 | what `record` leaves behind on a job with keyframes is, frame by frame, the job's samples and files |
| Quality.SettingsFor | src/components/Volume3DView.tsx:84-117 | interaction is (1.8 smax, 512, no shade, no peeling, 30, 0.4); still and quality use 0.25 and 0.1 smax with 8192 samples, shading, peeling, 400 peels and 0.05 |
| Quality.StillVersusQuality | src/components/Volume3DView.tsx:96-115 | idle high-performance settings equal quality except a 2.5 times coarser sample distance, so they differ for positive spacing |
| Quality.InteractionIsCoarser | src/components/Volume3DView.tsx:87-115 | interaction samples more coarsely, with fewer samples, no shading and no peeling |
| Quality.RenderSize | src/components/Volume3DView.tsx:153-155 | the render size is at least 1, the full client size outside interaction, and smaller during interaction |
| Quality.Step | src/components/Volume3DView.tsx:531-549 | camera events are ignored while off; the first applies interaction once and every one re-arms the timer; the timer applies still settings; the toggle applies still or quality and nothing else; `applyQualityMode` applies quality |
| Quality.RunKeepsTimerTracking | src/components/Volume3DView.tsx:537-549 | the timer is pending exactly while interacting, across any run of events |
| Quality.RunExtendsLog | src/components/Volume3DView.tsx:124-160 | a run only appends to the log of applied modes |
| Quality.OffStaysQuality | src/components/Volume3DView.tsx:532 | with the toggle off and no timer pending, nothing but quality is ever applied |
| Quality.OffNeverInteracts | src/components/Volume3DView.tsx:531-540 | with the toggle off, interaction settings are never applied |
| Quality.SettleAfterInteraction | src/components/Volume3DView.tsx:537-549 | one camera event then the timer applies interaction then still settings, and ends idle |
| Quality.BurstAppliesOnce | src/components/Volume3DView.tsx:537-546 | further camera events while interacting only re-arm the timer |
| Quality.StaleTimerAfterSwitchOff | src/components/Volume3DView.tsx:514-519 | switching off mid-interaction lets the old timer apply the still settings while off |
| Quality.WorldZAtSlice | src/components/Volume3DView.tsx:782-789 | no image gives null; otherwise `oz + clamp(k, 0, nz - 1) * sz` |
| Quality.WorldZMonotone | src/components/Volume3DView.tsx:787-788 | for a non-negative spacing, a higher slice is never lower in z |
| Quality.ControlPoints | src/components/Volume3DView.tsx:72-79 | n control points strictly ascending in [0, 1], from 0 to 1, a single point 0 when n is 1 |
| Quality.FractionsFacts | src/components/Volume3DView.tsx:75 | the fractions i/(n - 1) ascend strictly from 0 to 1 |
| App.HandleVolumeUpload | src/App.tsx:37-45 | the slice range is the depth, the slice starts at the middle slice within range, the reset token grows, and nothing else changes |
| App.OverlayOf | src/App.tsx:76-81 | the overlay keeps the segmentation's geometry with range [0, 1] |
| App.AsNums | src/App.tsx:65 | the buffer handed to the clamp holds the voxels as finite numbers |
| App.HandleSegUpload | src/App.tsx:47-84 | file and mode are recorded first; a dimension mismatch with the volume present when the upload started changes nothing else; otherwise probabilistic mode clears labels and clamps, and discrete mode catalogues, selects all and masks |
| App.VolumeLoadedMeanwhileIsNotChecked | src/App.tsx:50-59 | with no volume when the upload started, a segmentation whose dimensions differ from a volume loaded meanwhile still becomes the overlay, which the same file checked against that volume would not |
| App.DiscreteUploadMarksLabelledVoxels | src/App.tsx:69-73 | with at most 256 labels the initial mask is 1 exactly where the rounded value is non-zero |
| App.Toggle | src/App.tsx:104-107 | toggling flips membership of the label and of no other |
| App.ToggleTwice | src/App.tsx:102-109 | toggling twice restores the selection |
| App.RebuildOverlay | src/App.tsx:87-100 | with no file, a probabilistic one or one the loader rejects nothing changes; otherwise the overlay becomes the mask of the selection |
| App.ToggleLabel | src/App.tsx:102-109 | a label click changes only the selection and the overlay |
| App.ToggleFlipsExactlyThatLabel | src/App.tsx:102-109 | the overlay flips exactly at the voxels of the toggled label |
| App.ToggleLabelTwice | src/App.tsx:102-109 | two clicks restore the selection and its mask |
| App.FailedLoadSwitchesColormap | src/App.tsx:47-50 | a file the loader rejects is recorded with its mode first, so the colour map follows the new mode while the overlay, catalogue and selection stay the old ones |
| App.RefusedFileIsReread | src/App.tsx:48-59 | a refused file is still re-read by the next toggle, producing a mismatched overlay |
| App.OverlayColormap | src/App.tsx:113 | the colour map is prob iff the segmentation is probabilistic, and never labels |
| App.PassedOpacities | src/App.tsx:200-216 | every opacity passed is in [0, 1], is unchanged when already inside, and the slice opacities are the 2D ones |
| Controls.ClampedMax | src/components/Controls.tsx:66 | the slider top is `max(0, maxSlice)` |
| Controls.DisplayedSlice | src/components/Controls.tsx:106 | the shown slice is the index capped at the slider top, not clamped below |
| Controls.WheelDirection | src/components/Controls.tsx:78 | scrolling up is +1 and anything else -1 |
| Controls.WheelFloat | src/components/Controls.tsx:69-81 | the opacity wheel stays in [0, 1], moves by the step inside, and goes up for `deltaY < 0` |
| Controls.WheelFloatUpDown | src/components/Controls.tsx:78-79 | up then down returns an interior opacity |
| Controls.WheelInt | src/components/Controls.tsx:82-95 | the integer wheel stays in [lo, hi], moves by at most the step, in the wheel's direction |
| Controls.WheelSlice | src/components/Controls.tsx:108 | the slice wheel lands in [0, clampedMax] |
| Controls.WheelSliceInRange | src/components/Controls.tsx:104-110 | for a loaded volume the slice wheel moves one slice within [0, maxSlice] |
| Controls.VisibleLabels | src/components/Controls.tsx:67 | at most the first 64 labels, in order |
| Controls.ShowLabelList | src/components/Controls.tsx:191 | the list is shown iff there is a segmentation, it is discrete, and it has labels |
| View2D.AxisIndex | src/components/Volume2DView.tsx:134 | I, J, K map to 0, 1, 2; no axis maps to 2 |
| View2D.SlicingMode | src/components/Volume2DView.tsx:182 | the mapper slices along the axis, K when unset |
| View2D.CameraAxis | src/components/Volume2DView.tsx:221-233 | the camera looks along the axis, I when unset |
| View2D.FitIndices | src/components/Volume2DView.tsx:213-215 | the fit's width index is 1 for I, else 0; its height index is 1 for K, else 2 |
| View2D.AxisChoicesAgree | src/components/Volume2DView.tsx:213-215 | for a set axis the fit spans the two other dimensions and slicing, wheel and camera agree |
| View2D.UnsetAxisDisagrees | src/components/Volume2DView.tsx:213-233 | unset, the view slices K but the camera looks along I and the fit spans dimension 2 |
| View2D.WheelSlice | src/components/Volume2DView.tsx:131-139 | the wheel moves one slice, +1 for `deltaY > 0`, within [0, dims[axis] - 1], reporting only real changes |
| View2D.WheelThereAndBack | src/components/Volume2DView.tsx:136-138 | down then up from an interior slice returns to it |
| View2D.FitCamera | src/components/Volume2DView.tsx:202-233 | the parallel scale is half the larger fitted extent; the focal point is on the slice plane along the camera axis and at the volume's centre in the other two; the camera sits 500 units along its axis with the given view-up |
| View2D.FitCentresVolume | src/components/Volume2DView.tsx:206-233 | for every axis, set or unset, the focal point is the slice plane along the camera axis and the volume's centre in the two other dimensions |
| View2D.LabelColors | src/components/Volume2DView.tsx:77-83 | label 0 is black and label L in 1..255 is palette entry (L - 1) mod 10 |
| View2D.LabelColorsCycle | src/components/Volume2DView.tsx:80-83 | colours repeat every ten labels, ten consecutive labels differ, and no label is black |
| View2D.OverlayOpacityPoints | src/components/Volume2DView.tsx:261-274 | opacity starts at (0, 0), ascends, uses the clamped opacity elsewhere, and ends at 1 or, for labels, 255; probability and label maps have the point (eps, alpha), masks only the two ends |
| View2D.OverlayOpacityAt | src/components/Volume2DView.tsx:261-274 | under linear interpolation, value 0 is transparent; probability and label maps give every value from eps up the slider opacity the overlay was last built with; masks ramp linearly to it at 1 |

## Left out

- Loading NIfTI files (`loadNiftiFromFile`, `niftiToTypedArray`): file I/O, gzip and header parsing are in foreign libraries. An upload handler receives the decoded volume, and a segmentation upload may instead receive `Unreadable`. A volume upload whose load rejects changes nothing, as the handler awaits the load before any update.
- The vtk.js image construction (src/utils/vtkImage.ts), the favicon animation, the bootstrap and the build configuration: no logic beyond library calls.
- All vtk.js actors, mappers, lights and clipping planes, the canvas readback in `captureRGBA`, the animated default camera, pointer scrubbing, and the JSX layout: graphics and UI.
- The File System Access API, `alert`, `setTimeout(0)` and `requestAnimationFrame`: a write is a success flag per name plus an appended file, and a camera event runs at once.
- Idle timers firing while an export awaits between frames: the export runs its frames with no interleaved timer events.
- Every `setCameraPose` of an export is taken to raise a camera-modified event. vtk.js notifies only when a setter changes the camera, so an export whose first pose equals the live camera raises no event for that frame and captures it in quality mode.
- The "renderer not ready" early returns of the 3D view's handlers, and effect clean-up on unmount: lifecycle, not logic.
- IEEE floating point: numbers are reals. Float32 storage of the overlay, rounding error, and NaN ordering beyond `computeMinMax` and `clamp01Array` are not modelled.
- The cosine easing is a parameter constrained only by `ValidEasing`. `Math.cos` and `Math.PI` are not modelled.
- The turbo colour table's contents: constant data. Only the spacing of its control points is modelled.
- `setIsProbabilistic` of the control panel is never passed by the application. The panel's probabilistic toggle therefore has no effect and is not modelled.
- The control panel's other setters (checkboxes, opacity sliders without the wheel, reset button): they pass values straight through.
- Tga.EncodeTga: widths and heights are natural numbers. JavaScript's `&` and `>>` on negative or fractional dimensions are not modelled.
- Quality.Step: a logged mode is a call to `applySettingsForMode`, not the settings that reach the mappers. The imperative handle is created once (src/components/Volume3DView.tsx:235, no dependencies), so its `applyQualityMode` runs the first render's `applySettingsForMode`. That render saw no volume or overlay in the application, so the call changes only depth peeling, the peel count, the occlusion ratio and the render size, and leaves the mappers' sample distance, samples per ray and shading as they were. The camera listener likewise runs the closure of the render it was subscribed in. `Recording.ExportMode` is therefore the last mode called, not the mapper settings of the captured frame.
- Recording.ExportFrames: `getFileHandle(name, { create: true })` runs before the write. A frame whose `createWritable`, `write` or `close` fails still leaves a file of that name, empty or from an earlier export. The model's files are only the completed writes.
- View2D.OverlayOpacityPoints: the points are built in the overlay effect, which re-runs only when the overlay image, the colour map or the slice axis changes (src/components/Volume2DView.tsx:284). They keep the slider opacity of the last rebuild. A later slider move sets only the actor's own opacity (src/components/Volume2DView.tsx:293-302), which is not modelled.
- App.RebuildOverlay: the selection-change effect re-reads the file asynchronously on every change. Two quick toggles can finish out of order, leaving the mask of the older selection, and a rejected read keeps the old overlay. The model rebuilds at once, from the current selection.
- Recording.Record: an exception thrown by a capture or a write is the `None` capture or failed write of that frame. The error message is not modelled.
- Recording.FrameCount: `durationSec * framerate` is exact. The floating-point product's rounding is not modelled.
- Labels.ComputeMinMax: the buffer is a sequence of tagged numbers. Signed zeros and the Float32 buffer types are not distinguished.

=== FILE: app.dfy ===
/**
 * The application state behind the viewer: the loaded volume and its slice
 * range, the segmentation file and how it is read (probabilistic or
 * discrete labels), the label catalogue and selection, and the overlay
 * image the views draw.
 *
 * Loading a NIfTI file is outside the model: an upload handler receives the
 * file's decoded content, or for a segmentation the fact that the loader
 * rejected it. The selection-change effect, which re-reads the
 * segmentation file, is `RebuildOverlay`, run after every selection change.
 */
module App {
  import opened Basics
  import opened Labels

  /** A decoded NIfTI file: its geometry and its flat scalar buffer. */
  datatype Volume = Volume(geometry: Geometry, scalars: seq<real>)

  /** An image handed to the views, with the scalar range it declares. */
  datatype Image = Image(geometry: Geometry, scalars: seq<real>, scalarMin: real, scalarMax: real)

  /** A chosen segmentation file: its decoded content, or a file the loader rejects. */
  datatype SegSource = Decoded(volume: Volume) | Unreadable

  datatype Opacities = Opacities(volume2D: real, overlay2D: real, volume3D: real, overlay3D: real)

  datatype AppState = AppState(
    segFile: Option<SegSource>,
    segIsProb: bool,
    volume: Option<Geometry>,
    overlay: Option<Image>,
    sliceIndex: int,
    maxSlice: int,
    resetToken: nat,
    uniqueLabels: seq<int>,
    selected: set<int>,
    opacities: Opacities)

  /** The state on start-up. */
  const Initial := AppState(None, false, None, None, 0, 0, 0, [], {}, Opacities(1.0, 0.75, 0.3, 0.15))

  /** The cap on the label catalogue the discrete upload asks for. */
  const MaxLabels: nat := 256

  // ---------------------------------------------------------------------
  // Volume upload

  /**
   * `handleVolumeUpload`: show the new volume, let the slice range span its
   * depth, start in the middle slice and request a camera reset.
   */
  function HandleVolumeUpload(s: AppState, loaded: Volume): (r: AppState)
    ensures r.volume == Some(loaded.geometry)
    ensures r.maxSlice == loaded.geometry.dims.nz - 1
    ensures loaded.geometry.dims.nz >= 1 ==> 0 <= r.sliceIndex <= r.maxSlice
    ensures 2 * r.sliceIndex <= loaded.geometry.dims.nz < 2 * r.sliceIndex + 2
    ensures r.resetToken > s.resetToken
    ensures r.(volume := s.volume, maxSlice := s.maxSlice, sliceIndex := s.sliceIndex,
               resetToken := s.resetToken) == s
  {
    var nz := loaded.geometry.dims.nz;
    s.(volume := Some(loaded.geometry), maxSlice := nz - 1, sliceIndex := nz / 2,
       resetToken := s.resetToken + 1)
  }

  // ---------------------------------------------------------------------
  // Segmentation upload

  /** Whether two geometries have a different voxel count on some axis. */
  predicate DimsDiffer(a: Dims, b: Dims) {
    a.nx != b.nx || a.ny != b.ny || a.nz != b.nz
  }

  /** The overlay image built from a segmentation: its geometry, declared range [0, 1]. */
  function OverlayOf(file: Volume, scalars: seq<real>): (img: Image)
    ensures img.geometry == file.geometry && img.scalarMin == 0.0 && img.scalarMax == 1.0
    ensures img.scalars == scalars
  {
    Image(file.geometry, scalars, 0.0, 1.0)
  }

  /** The segmentation's scalars as the numbers the clamp reads (all finite here). */
  function AsNums(a: seq<real>): (n: seq<Num>)
    ensures |n| == |a| && forall i :: 0 <= i < |a| ==> n[i] == Fin(a[i])
  {
    seq(|a|, i requires 0 <= i < |a| => Fin(a[i]))
  }

  /**
   * The volume the handler checks against, `seen`, has dimensions that
   * differ from the segmentation's: the upload is refused.
   */
  predicate Refused(seen: Option<Geometry>, file: Volume) {
    seen.Some? && DimsDiffer(seen.value.dims, file.geometry.dims)
  }

  /**
   * `handleSegUpload`: record the file and its mode first; stop there when
   * the file cannot be loaded or its dimensions differ from those of the
   * volume `seen`; otherwise build the overlay, a clamped probability field
   * or the mask of every catalogued label, and reset the catalogue and
   * selection to match.
   *
   * `seen` is the volume of the render in which the upload started: the
   * handler keeps it across the load, so a volume upload that finishes in
   * the meantime is in `s` but not in `seen`.
   */
  function HandleSegUpload(s: AppState, seen: Option<Geometry>, file: SegSource, isProb: bool): (r: AppState)
    ensures r.segFile == Some(file) && r.segIsProb == isProb
    // a rejected load or a mismatch changes nothing but the recorded file and mode
    ensures file.Unreadable? || Refused(seen, file.volume) ==>
              r == s.(segFile := Some(file), segIsProb := isProb)
    ensures file.Decoded? && !Refused(seen, file.volume) ==>
              var v := file.volume;
              && r.overlay.Some?
              && r.overlay.value.geometry == v.geometry
              && r.overlay.value.scalarMin == 0.0 && r.overlay.value.scalarMax == 1.0
              && |r.overlay.value.scalars| == |v.scalars|
              && (isProb ==> r.uniqueLabels == [] && r.selected == {}
                             && r.overlay.value.scalars == Clamp01Array(AsNums(v.scalars)))
              && (!isProb ==> r.uniqueLabels == ExtractUniqueLabels(v.scalars, true, MaxLabels)
                              && r.selected == (set l | l in r.uniqueLabels)
                              && r.overlay.value.scalars == BinaryMask(v.scalars, r.selected))
              && r.(overlay := s.overlay, uniqueLabels := s.uniqueLabels, selected := s.selected)
                 == s.(segFile := Some(file), segIsProb := isProb)
  {
    var recorded := s.(segFile := Some(file), segIsProb := isProb);
    match file
    case Unreadable => recorded
    case Decoded(v) =>
      if Refused(seen, v) then recorded
      else if isProb then
        recorded.(overlay := Some(OverlayOf(v, Clamp01Array(AsNums(v.scalars)))),
                  uniqueLabels := [], selected := {})
      else
        var labels := ExtractUniqueLabels(v.scalars, true, MaxLabels);
        var initial := set l | l in labels;
        recorded.(overlay := Some(OverlayOf(v, BinaryMask(v.scalars, initial))),
                  uniqueLabels := labels, selected := initial)
  }

  /**
   * A file the loader rejects still switches the recorded mode: the colour
   * map follows the new mode while the overlay, catalogue and selection stay
   * those of the previous segmentation.
   */
  lemma FailedLoadSwitchesColormap(s: AppState, seen: Option<Geometry>, isProb: bool)
    ensures var r := HandleSegUpload(s, seen, Unreadable, isProb);
            && r.overlay == s.overlay && r.uniqueLabels == s.uniqueLabels && r.selected == s.selected
            && (OverlayColormap(r) == Prob <==> isProb)
  {
  }

  /**
   * The check sees only the volume present when the upload began: with no
   * volume then, a segmentation is accepted even when a volume loaded during
   * its load has other dimensions, and the views get a mismatched overlay.
   * Checked against that newer volume, the same file is refused.
   */
  lemma VolumeLoadedMeanwhileIsNotChecked(s: AppState, file: Volume, isProb: bool)
    requires Refused(s.volume, file)
    ensures var r := HandleSegUpload(s, None, Decoded(file), isProb);
            r.overlay.Some? && r.overlay.value.geometry == file.geometry
            && DimsDiffer(r.volume.value.dims, r.overlay.value.geometry.dims)
    ensures HandleSegUpload(s, s.volume, Decoded(file), isProb).overlay == s.overlay
  {
  }

  /**
   * A discrete upload with at most 256 distinct labels shows exactly the
   * labelled voxels: the initial mask is 1 precisely where the rounded value
   * is not 0.
   */
  lemma DiscreteUploadMarksLabelledVoxels(s: AppState, seen: Option<Geometry>, file: Volume)
    requires !Refused(seen, file)
    requires |ExtractUniqueLabels(file.scalars, true, MaxLabels)| <= MaxLabels
    ensures var m := HandleSegUpload(s, seen, Decoded(file), false).overlay.value.scalars;
            forall i :: 0 <= i < |file.scalars| ==> (m[i] == 1.0 <==> Round(file.scalars[i]) != 0)
  {
    var labels := ExtractUniqueLabels(file.scalars, true, MaxLabels);
    forall i | 0 <= i < |file.scalars|
      ensures Round(file.scalars[i]) in labels <==> Round(file.scalars[i]) != 0
    {
      if Round(file.scalars[i]) != 0 {
        assert Counts(Round(file.scalars[i]), true);
      }
    }
  }

  // ---------------------------------------------------------------------
  // Label selection

  /** `handleToggleLabel`'s set update: remove the label if present, add it otherwise. */
  function Toggle(selected: set<int>, lbl: int): (r: set<int>)
    ensures lbl in r <==> lbl !in selected
    ensures forall l :: l != lbl ==> (l in r <==> l in selected)
  {
    if lbl in selected then selected - {lbl} else selected + {lbl}
  }

  lemma ToggleTwice(selected: set<int>, lbl: int)
    ensures Toggle(Toggle(selected, lbl), lbl) == selected
  {
  }

  /** A discrete segmentation whose file the loader reads: the selection-change effect rebuilds from it. */
  predicate Rebuilds(s: AppState) {
    s.segFile.Some? && s.segFile.value.Decoded? && !s.segIsProb
  }

  /**
   * The selection-change effect: with a discrete segmentation file, re-read
   * it and rebuild the overlay as the mask of the selected labels; with no
   * file or a probabilistic one nothing happens, and a file the loader
   * rejects leaves the overlay as it was.
   */
  function RebuildOverlay(s: AppState): (r: AppState)
    ensures !Rebuilds(s) ==> r == s
    ensures Rebuilds(s) ==>
              var v := s.segFile.value.volume;
              r == s.(overlay := Some(OverlayOf(v, BinaryMask(v.scalars, s.selected))))
  {
    match s.segFile
    case Some(Decoded(v)) =>
      if s.segIsProb then s else s.(overlay := Some(OverlayOf(v, BinaryMask(v.scalars, s.selected))))
    case _ => s
  }

  /** Clicking a label: toggle it, then let the selection-change effect run. */
  function ToggleLabel(s: AppState, lbl: int): (r: AppState)
    ensures r.selected == Toggle(s.selected, lbl)
    ensures r.(overlay := s.overlay, selected := s.selected) == s
  {
    RebuildOverlay(s.(selected := Toggle(s.selected, lbl)))
  }

  /**
   * With a discrete segmentation, toggling a label flips the overlay at
   * exactly the voxels whose rounded value is that label.
   */
  lemma ToggleFlipsExactlyThatLabel(s: AppState, lbl: int)
    requires Rebuilds(s)
    ensures var a := s.segFile.value.volume.scalars;
            var before := BinaryMask(a, s.selected);
            var after := ToggleLabel(s, lbl).overlay.value.scalars;
            |after| == |a|
            && forall i :: 0 <= i < |a| ==> (after[i] != before[i] <==> Round(a[i]) == lbl)
  {
  }

  /** Toggling the same label twice restores the selection and its mask. */
  lemma ToggleLabelTwice(s: AppState, lbl: int)
    requires Rebuilds(s)
    ensures var r := ToggleLabel(ToggleLabel(s, lbl), lbl);
            var v := s.segFile.value.volume;
            r.selected == s.selected
            && r.overlay == Some(OverlayOf(v, BinaryMask(v.scalars, s.selected)))
  {
    ToggleTwice(s.selected, lbl);
  }

  /**
   * A refused segmentation stays recorded as the file to re-read: a later
   * label toggle rebuilds the overlay from it, dimensions and all.
   */
  lemma RefusedFileIsReread(s: AppState, file: Volume, lbl: int)
    requires Refused(s.volume, file)
    ensures var r := ToggleLabel(HandleSegUpload(s, s.volume, Decoded(file), false), lbl);
            r.overlay.Some? && r.overlay.value.geometry == file.geometry
            && DimsDiffer(r.volume.value.dims, r.overlay.value.geometry.dims)
  {
  }

  // ---------------------------------------------------------------------
  // What the views receive

  /** The colour map the overlay is drawn with: never the categorical one. */
  function OverlayColormap(s: AppState): (c: Colormap)
    ensures c == Prob <==> s.segIsProb
    ensures c != Categorical
  {
    if s.segIsProb then Prob else Binary
  }

  /**
   * Every opacity passed to the views, clamped into [0, 1]; the 3D view's
   * slice opacities are the 2D view's.
   */
  datatype ViewOpacities = ViewOpacities(volume2D: real, overlay2D: real, volume3D: real, overlay3D: real,
                                         sliceCT: real, sliceSeg: real)

  predicate Unit(x: real) { 0.0 <= x <= 1.0 }

  function PassedOpacities(o: Opacities): (v: ViewOpacities)
    ensures Unit(v.volume2D) && Unit(v.overlay2D) && Unit(v.volume3D) && Unit(v.overlay3D)
    ensures Unit(v.sliceCT) && Unit(v.sliceSeg)
    ensures v.sliceCT == v.volume2D && v.sliceSeg == v.overlay2D
    ensures Unit(o.volume2D) ==> v.volume2D == o.volume2D
    ensures Unit(o.overlay2D) ==> v.overlay2D == o.overlay2D
    ensures Unit(o.volume3D) ==> v.volume3D == o.volume3D
    ensures Unit(o.overlay3D) ==> v.overlay3D == o.overlay3D
  {
    ViewOpacities(Clamp01(o.volume2D), Clamp01(o.overlay2D), Clamp01(o.volume3D), Clamp01(o.overlay3D),
                  Clamp01(o.volume2D), Clamp01(o.overlay2D))
  }
}

=== FILE: basics.dfy ===
/**
 * Shared vocabulary of the viewer model: optional values, 3-vectors, the
 * volume geometry every image carries, and the small numeric helpers that
 * several components use (JavaScript's `Math.round`, `Math.min`/`Math.max`
 * clamps).
 */
module Basics {

  datatype Option<+T> = None | Some(value: T)

  /** A point or direction in world space, or a per-axis triple such as a spacing. */
  datatype Vec3 = Vec3(x: real, y: real, z: real)

  /** Voxel counts along the three axes (x fastest-varying in the scalar buffer). */
  datatype Dims = Dims(nx: int, ny: int, nz: int)

  /** Dimensions, physical spacing and world origin of a loaded volume. */
  datatype Geometry = Geometry(dims: Dims, spacing: Vec3, origin: Vec3)

  /** How the overlay's scalars are coloured: a probability field, a 0/1 mask, or integer labels. */
  datatype Colormap = Prob | Binary | Categorical

  function Max(a: real, b: real): real { if a >= b then a else b }

  function Min(a: real, b: real): real { if a <= b then a else b }

  /** `Math.max(...spacing)` over a three-component spacing. */
  function Max3(v: Vec3): (m: real)
    ensures m >= v.x && m >= v.y && m >= v.z
    ensures m == v.x || m == v.y || m == v.z
  {
    Max(v.x, Max(v.y, v.z))
  }

  /** JavaScript `Math.round`: the nearest integer, halves rounded up. */
  function Round(x: real): (r: int)
    ensures x - 0.5 < r as real <= x + 0.5
  {
    (x + 0.5).Floor
  }

  predicate IsInteger(x: real) { x.Floor as real == x }

  /** `Math.min(hi, Math.max(lo, v))` on integers. */
  function ClampInt(v: int, lo: int, hi: int): (r: int)
    ensures lo <= hi ==> lo <= r <= hi
    ensures lo <= v <= hi ==> r == v
    ensures v < lo <= hi ==> r == lo
    ensures v > hi ==> r == hi
  {
    var atLeastLo := if v >= lo then v else lo;
    if atLeastLo <= hi then atLeastLo else hi
  }

  /** `Math.min(1, Math.max(0, v))`. */
  function Clamp01(v: real): (r: real)
    ensures 0.0 <= r <= 1.0
    ensures 0.0 <= v <= 1.0 ==> r == v
    ensures v < 0.0 ==> r == 0.0
    ensures v > 1.0 ==> r == 1.0
  {
    Min(1.0, Max(0.0, v))
  }

  /** Scaling by a non-negative factor keeps the order of two integers. */
  lemma ScaleMonotone(a: int, b: int, c: real)
    requires a <= b && c >= 0.0
    ensures a as real * c <= b as real * c
  {
    var d := (b - a) as real;
    assert b as real * c == a as real * c + d * c;
  }

  /** A rounded value that lies between two integers stays between them. */
  lemma RoundBetween(x: real, lo: int, hi: int)
    requires lo as real <= x <= hi as real
    ensures lo <= Round(x) <= hi
  {
  }
}

=== FILE: controls.dfy ===
/**
 * The control panel's arithmetic: the slice slider's range and displayed
 * value, mouse-wheel stepping of the opacity and slice sliders, and which
 * labels the panel lists.
 */
module Controls {
  import opened Basics

  /** `Math.max(0, maxSlice)`: the slider's upper end. */
  function ClampedMax(maxSlice: int): (m: int)
    ensures m >= 0 && m >= maxSlice
    ensures maxSlice >= 0 ==> m == maxSlice
  {
    if maxSlice >= 0 then maxSlice else 0
  }

  /**
   * `Math.min(sliceIndex, clampedMax)`: the value the slider shows. It is
   * capped above only; a negative index is shown as it is.
   */
  function DisplayedSlice(sliceIndex: int, maxSlice: int): (d: int)
    ensures d <= ClampedMax(maxSlice)
    ensures d <= sliceIndex
    ensures d == sliceIndex || d == ClampedMax(maxSlice)
    ensures sliceIndex >= 0 ==> d >= 0
  {
    if sliceIndex <= ClampedMax(maxSlice) then sliceIndex else ClampedMax(maxSlice)
  }

  /** Scrolling up (`deltaY < 0`) moves a slider up, anything else moves it down. */
  function WheelDirection(deltaY: real): (d: int)
    ensures d == 1 <==> deltaY < 0.0
    ensures d == 1 || d == -1
  {
    if deltaY < 0.0 then 1 else -1
  }

  /** The opacity sliders' step per wheel notch. */
  const FloatStep: real := 0.001

  /** `handleWheelFloat`: one step in the wheel's direction, clamped into [0, 1]. */
  function WheelFloat(current: real, deltaY: real, step: real): (next: real)
    ensures 0.0 <= next <= 1.0
    ensures deltaY < 0.0 && 0.0 <= current + step <= 1.0 ==> next == current + step
    ensures deltaY >= 0.0 && 0.0 <= current - step <= 1.0 ==> next == current - step
    ensures step >= 0.0 && deltaY < 0.0 ==> next >= Clamp01(current)
    ensures step >= 0.0 && deltaY >= 0.0 ==> next <= Clamp01(current)
  {
    // direction * step, with the direction one of +1 and -1
    var moved := if WheelDirection(deltaY) == 1 then current + step else current - step;
    Clamp01(moved)
  }

  /** Scrolling up then down one notch returns an interior opacity to where it was. */
  lemma WheelFloatUpDown(current: real, step: real)
    requires 0.0 <= current && current + step <= 1.0 && step >= 0.0
    ensures WheelFloat(WheelFloat(current, -1.0, step), 1.0, step) == current
  {
  }

  /** `handleWheelInt`: one step in the wheel's direction, clamped into [lo, hi]. */
  function WheelInt(current: int, deltaY: real, lo: int, hi: int, step: int): (next: int)
    ensures lo <= hi ==> lo <= next <= hi
    ensures lo <= current <= hi && step >= 0 ==>
              current - step <= next <= current + step
    ensures lo <= current <= hi && step >= 0 && deltaY < 0.0 ==> next >= current
    ensures lo <= current <= hi && step >= 0 && deltaY >= 0.0 ==> next <= current
    ensures lo <= current + WheelDirection(deltaY) * step <= hi ==>
              next == current + WheelDirection(deltaY) * step
  {
    ClampInt(current + WheelDirection(deltaY) * step, lo, hi)
  }

  /** The slice slider's wheel: from the displayed slice, one slice within [0, clampedMax]. */
  function WheelSlice(sliceIndex: int, maxSlice: int, deltaY: real): (next: int)
    ensures 0 <= next <= ClampedMax(maxSlice)
  {
    WheelInt(DisplayedSlice(sliceIndex, maxSlice), deltaY, 0, ClampedMax(maxSlice), 1)
  }

  /** Scrolling the slice slider always lands on a valid slice of a loaded volume. */
  lemma WheelSliceInRange(sliceIndex: int, maxSlice: int, deltaY: real)
    requires maxSlice >= 0
    ensures 0 <= WheelSlice(sliceIndex, maxSlice, deltaY) <= maxSlice
    ensures 0 <= sliceIndex <= maxSlice ==>
              var n := WheelSlice(sliceIndex, maxSlice, deltaY);
              (deltaY < 0.0 ==> n == if sliceIndex < maxSlice then sliceIndex + 1 else maxSlice)
              && (deltaY >= 0.0 ==> n == if sliceIndex > 0 then sliceIndex - 1 else 0)
  {
  }

  /** The most labels the panel lists. */
  const ListedLabels: nat := 64

  /** `uniqueLabels.slice(0, 64)`. */
  function VisibleLabels(labels: seq<int>): (v: seq<int>)
    ensures |v| <= ListedLabels
    ensures |v| == if |labels| <= ListedLabels then |labels| else ListedLabels
    ensures v == labels[..|v|]
  {
    if |labels| <= ListedLabels then labels else labels[..ListedLabels]
  }

  /**
   * The label list is shown for a loaded, discrete segmentation with at
   * least one label.
   */
  function ShowLabelList(hasSeg: bool, isProbabilistic: bool, labels: seq<int>): (show: bool)
    ensures show <==> hasSeg && !isProbabilistic && |labels| > 0
  {
    hasSeg && !isProbabilistic && |VisibleLabels(labels)| > 0
  }
}

=== FILE: keyframes.dfy ===
/**
 * The keyframe animation sampler of the recording panel: camera poses and
 * slice indices anchored at times, sampled at any time by clamping to the
 * end keyframes and easing between the bracketing pair.
 *
 * The cosine easing `0.5 * (1 - cos(pi * u))` is a parameter `ease`; the
 * properties that depend on it assume only `ValidEasing`.
 */
module Keyframes {
  import opened Basics

  datatype CameraPose = CameraPose(position: Vec3, focalPoint: Vec3, viewUp: Vec3, viewAngle: real)

  datatype Keyframe = Keyframe(timeSec: real, camera: CameraPose, sliceIndex: int)

  /** What sampling yields: the live camera and slice held, or a keyframe. */
  datatype Sampled = Hold(camera: Option<CameraPose>, sliceIndex: int) | At(kf: Keyframe)

  /** The facts about the cosine easing that the sampler relies on. */
  ghost predicate ValidEasing(ease: real -> real) {
    && ease(0.0) == 0.0
    && ease(1.0) == 1.0
    && forall u :: 0.0 <= u <= 1.0 ==> 0.0 <= ease(u) <= 1.0
  }

  predicate Between(x: real, a: real, b: real) {
    Min(a, b) <= x <= Max(a, b)
  }

  predicate Between3(v: Vec3, a: Vec3, b: Vec3) {
    Between(v.x, a.x, b.x) && Between(v.y, a.y, b.y) && Between(v.z, a.z, b.z)
  }

  /** `lerp`: an interpolation weight in [0, 1] stays between the endpoints. */
  function Lerp(a: real, b: real, t: real): (r: real)
    ensures 0.0 <= t <= 1.0 ==> Between(r, a, b)
    ensures t == 0.0 ==> r == a
    ensures t == 1.0 ==> r == b
  {
    var step := (b - a) * t;
    ScaleBetween(b - a, t, step);
    a + step
  }

  lemma MulNonNegative(x: real, y: real)
    requires x >= 0.0 && y >= 0.0
    ensures x * y >= 0.0
  {
  }

  /** A weight in [0, 1] scales a difference towards zero. */
  lemma ScaleBetween(d: real, t: real, step: real)
    requires step == d * t
    ensures t == 0.0 ==> step == 0.0
    ensures t == 1.0 ==> step == d
    ensures 0.0 <= t <= 1.0 && d >= 0.0 ==> 0.0 <= step <= d
    ensures 0.0 <= t <= 1.0 && d <= 0.0 ==> d <= step <= 0.0
  {
    if 0.0 <= t <= 1.0 {
      assert d * (1.0 - t) == d - step;
      if d >= 0.0 {
        MulNonNegative(d, t);
        MulNonNegative(d, 1.0 - t);
      } else {
        assert (-d) * t == -step;
        assert (-d) * (1.0 - t) == step - d;
        MulNonNegative(-d, t);
        MulNonNegative(-d, 1.0 - t);
      }
    }
  }

  /** `lerp3`: componentwise interpolation of a 3-vector. */
  function Lerp3(a: Vec3, b: Vec3, t: real): (r: Vec3)
    ensures 0.0 <= t <= 1.0 ==> Between3(r, a, b)
    ensures t == 0.0 ==> r == a
    ensures t == 1.0 ==> r == b
  {
    Vec3(Lerp(a.x, b.x, t), Lerp(a.y, b.y, t), Lerp(a.z, b.z, t))
  }

  // ---------------------------------------------------------------------
  // Ordering by time

  predicate SortedByTime(s: seq<Keyframe>) {
    forall i, j :: 0 <= i < j < |s| ==> s[i].timeSec <= s[j].timeSec
  }

  /** Place `k` before the first keyframe that is not earlier than it. */
  function InsertByTime(k: Keyframe, s: seq<Keyframe>): (r: seq<Keyframe>)
    requires SortedByTime(s)
    ensures SortedByTime(r)
    ensures |r| == |s| + 1
    ensures r[0] == k || (|s| > 0 && r[0] == s[0])
    ensures multiset(r) == multiset(s) + multiset{k}
  {
    if |s| == 0 then [k]
    else if k.timeSec <= s[0].timeSec then [k] + s
    else
      var rest := InsertByTime(k, s[1..]);
      assert s == [s[0]] + s[1..];
      SortedCons(s[0], rest);
      assert multiset([s[0]] + rest) == multiset{s[0]} + multiset(rest);
      [s[0]] + rest
  }

  lemma SortedCons(x: Keyframe, s: seq<Keyframe>)
    requires SortedByTime(s)
    requires |s| > 0 ==> x.timeSec <= s[0].timeSec
    ensures SortedByTime([x] + s)
  {
    var r := [x] + s;
    forall i, j | 0 <= i < j < |r|
      ensures r[i].timeSec <= r[j].timeSec
    {
      if i == 0 {
        assert r[j] == s[j - 1];
      } else {
        assert r[i] == s[i - 1] && r[j] == s[j - 1];
      }
    }
  }

  /**
   * `keyframes.slice().sort((a, b) => a.timeSec - b.timeSec)`: a stable sort
   * by time (`SortStable`).
   */
  function SortByTime(s: seq<Keyframe>): (r: seq<Keyframe>)
    ensures SortedByTime(r)
    ensures multiset(r) == multiset(s)
    ensures |r| == |s|
  {
    if |s| == 0 then []
    else
      assert s == [s[0]] + s[1..];
      InsertByTime(s[0], SortByTime(s[1..]))
  }

  /** The keyframes at time `t`, in their order in `s`. */
  function AtTime(s: seq<Keyframe>, t: real): (r: seq<Keyframe>)
    ensures |r| <= |s|
  {
    if |s| == 0 then []
    else (if s[0].timeSec == t then [s[0]] else []) + AtTime(s[1..], t)
  }

  lemma AtTimeCons(x: Keyframe, s: seq<Keyframe>, t: real)
    ensures x.timeSec == t ==> AtTime([x] + s, t) == [x] + AtTime(s, t)
    ensures x.timeSec != t ==> AtTime([x] + s, t) == AtTime(s, t)
  {
    assert ([x] + s)[1..] == s;
  }

  lemma SortedTail(s: seq<Keyframe>)
    requires SortedByTime(s) && |s| > 0
    ensures SortedByTime(s[1..])
  {
  }

  /** Inserted at the front, `k` precedes everything. */
  lemma InsertAtFront(k: Keyframe, s: seq<Keyframe>, t: real)
    requires SortedByTime(s)
    requires |s| == 0 || k.timeSec <= s[0].timeSec
    ensures k.timeSec == t ==> AtTime(InsertByTime(k, s), t) == [k] + AtTime(s, t)
    ensures k.timeSec != t ==> AtTime(InsertByTime(k, s), t) == AtTime(s, t)
  {
    assert InsertByTime(k, s) == [k] + s;
    AtTimeCons(k, s, t);
  }

  /** Inserted past the head, `k` leaves the head first; a head of time `t` rules out `k` having time `t`. */
  lemma InsertPastHead(k: Keyframe, s: seq<Keyframe>, t: real)
    requires SortedByTime(s) && |s| > 0 && k.timeSec > s[0].timeSec
    requires SortedByTime(s[1..])
    requires k.timeSec == t ==> AtTime(InsertByTime(k, s[1..]), t) == [k] + AtTime(s[1..], t)
    requires k.timeSec != t ==> AtTime(InsertByTime(k, s[1..]), t) == AtTime(s[1..], t)
    ensures k.timeSec == t ==> AtTime(InsertByTime(k, s), t) == [k] + AtTime(s, t)
    ensures k.timeSec != t ==> AtTime(InsertByTime(k, s), t) == AtTime(s, t)
  {
    var rest := InsertByTime(k, s[1..]);
    assert InsertByTime(k, s) == [s[0]] + rest;
    AtTimeCons(s[0], rest, t);
  }

  /** Inserting `k` puts it before every keyframe of its own time. */
  lemma {:induction false} InsertAtTime(k: Keyframe, s: seq<Keyframe>, t: real)
    requires SortedByTime(s)
    ensures k.timeSec == t ==> AtTime(InsertByTime(k, s), t) == [k] + AtTime(s, t)
    ensures k.timeSec != t ==> AtTime(InsertByTime(k, s), t) == AtTime(s, t)
  {
    if |s| > 0 && k.timeSec > s[0].timeSec {
      SortedTail(s);
      InsertAtTime(k, s[1..], t);
      InsertPastHead(k, s, t);
    } else {
      InsertAtFront(k, s, t);
    }
  }

  /**
   * Stability: for every time, the keyframes at that time come out of the
   * sort in the order they went in.
   */
  lemma {:induction false} SortStable(s: seq<Keyframe>, t: real)
    ensures AtTime(SortByTime(s), t) == AtTime(s, t)
  {
    if |s| > 0 {
      SortStable(s[1..], t);
      InsertAtTime(s[0], SortByTime(s[1..]), t);
    }
  }

  // ---------------------------------------------------------------------
  // Sampling

  predicate Brackets(kf: seq<Keyframe>, i: int, t: real)
    requires 0 <= i && i + 1 < |kf|
  {
    kf[i].timeSec <= t <= kf[i + 1].timeSec
  }

  /**
   * The span search: advance from `i` until `kf[i]` and `kf[i + 1]` bracket
   * `t` or the last keyframe is reached. On sorted keyframes with `t`
   * strictly before the last time the search stops at a real span, so the
   * read of `kf[i + 1]` that follows is in bounds.
   */
  function FindSpan(kf: seq<Keyframe>, t: real, i: nat): (j: nat)
    requires i < |kf|
    ensures i <= j < |kf|
    ensures j + 1 < |kf| ==> Brackets(kf, j, t)
    ensures forall k :: i <= k < j ==> !Brackets(kf, k, t)
    ensures SortedByTime(kf) && kf[i].timeSec <= t < kf[|kf| - 1].timeSec ==> j + 1 < |kf|
    decreases |kf| - i
  {
    if i < |kf| - 1 && !(kf[i].timeSec <= t <= kf[i + 1].timeSec) then FindSpan(kf, t, i + 1)
    else i
  }

  /** The local parameter of `t` in the span from `a` to `b`; 0 for an empty span. */
  function LocalT(a: Keyframe, b: Keyframe, t: real): (u: real)
    ensures a.timeSec <= t <= b.timeSec ==> 0.0 <= u <= 1.0
    ensures b.timeSec - a.timeSec <= 0.0 ==> u == 0.0
    ensures t == a.timeSec ==> u == 0.0
    ensures a.timeSec < b.timeSec && t == b.timeSec ==> u == 1.0
  {
    var span := b.timeSec - a.timeSec;
    if span > 0.0 then
      assert t <= b.timeSec ==> (t - a.timeSec) / span <= 1.0;
      (t - a.timeSec) / span
    else 0.0
  }

  /** The eased blend of two keyframes at time `t`. */
  function Interpolate(a: Keyframe, b: Keyframe, t: real, ease: real -> real): Keyframe {
    var e := ease(LocalT(a, b, t));
    Keyframe(t,
             CameraPose(Lerp3(a.camera.position, b.camera.position, e),
                        Lerp3(a.camera.focalPoint, b.camera.focalPoint, e),
                        Lerp3(a.camera.viewUp, b.camera.viewUp, e),
                        Lerp(a.camera.viewAngle, b.camera.viewAngle, e)),
             Round(Lerp(a.sliceIndex as real, b.sliceIndex as real, e)))
  }

  /** Sampling of keyframes that are already in time order. */
  function SampleSorted(kf: seq<Keyframe>, t: real, ease: real -> real,
                        liveCamera: Option<CameraPose>, liveSlice: int): (r: Sampled)
    requires SortedByTime(kf)
    ensures |kf| == 0 ==> r == Hold(liveCamera, liveSlice)
    ensures |kf| == 1 ==> r == At(kf[0])
    ensures |kf| >= 2 && t <= kf[0].timeSec ==> r == At(kf[0])
    ensures |kf| >= 2 && kf[0].timeSec < t && t >= kf[|kf| - 1].timeSec ==> r == At(kf[|kf| - 1])
    ensures |kf| >= 2 && kf[0].timeSec < t < kf[|kf| - 1].timeSec ==>
              exists i :: 0 <= i && i + 1 < |kf| && Brackets(kf, i, t)
                          && r == At(Interpolate(kf[i], kf[i + 1], t, ease))
  {
    if |kf| == 0 then Hold(liveCamera, liveSlice)
    else if |kf| == 1 then At(kf[0])
    else if t <= kf[0].timeSec then At(kf[0])
    else if t >= kf[|kf| - 1].timeSec then At(kf[|kf| - 1])
    else
      var i := FindSpan(kf, t, 0);
      At(Interpolate(kf[i], kf[i + 1], t, ease))
  }

  /**
   * `sampleAtTime`: sample the keyframes, taken in time order, at `t`. With
   * no keyframes the live camera and slice are held; with one, it is
   * returned at every time. Otherwise the samples clamp at both ends: at or
   * before the earliest time the earliest keyframe comes back unchanged, and
   * after it but at or after the latest time the latest one does (the
   * earliest-time test is made first).
   */
  function SampleAtTime(keyframes: seq<Keyframe>, t: real, ease: real -> real,
                        liveCamera: Option<CameraPose>, liveSlice: int): (r: Sampled)
    ensures |keyframes| == 0 ==> r == Hold(liveCamera, liveSlice)
    ensures |keyframes| >= 1 ==> r.At?
    ensures |keyframes| == 1 ==> r == At(keyframes[0])
    ensures |keyframes| >= 1 && t <= SortByTime(keyframes)[0].timeSec ==> r == At(SortByTime(keyframes)[0])
    ensures |keyframes| >= 1 && SortByTime(keyframes)[0].timeSec < t
              && t >= SortByTime(keyframes)[|keyframes| - 1].timeSec
            ==> r == At(SortByTime(keyframes)[|keyframes| - 1])
  {
    if |keyframes| == 1 then
      SortSingle(keyframes[0]);
      assert keyframes == [keyframes[0]];
      At(keyframes[0])
    else
      SampleSorted(SortByTime(keyframes), t, ease, liveCamera, liveSlice)
  }

  lemma SortSingle(k: Keyframe)
    ensures SortByTime([k]) == [k]
  {
    assert [k][1..] == [];
  }

  // ---------------------------------------------------------------------
  // Properties of sampling

  /**
   * Between the bracketing keyframes the sample's time is `t`, every camera
   * component lies between the two keyframes' values, and so does the
   * rounded slice index.
   */
  lemma InterpolateBetween(a: Keyframe, b: Keyframe, t: real, ease: real -> real)
    requires ValidEasing(ease)
    requires a.timeSec <= t <= b.timeSec
    ensures var k := Interpolate(a, b, t, ease);
            && k.timeSec == t
            && Between3(k.camera.position, a.camera.position, b.camera.position)
            && Between3(k.camera.focalPoint, a.camera.focalPoint, b.camera.focalPoint)
            && Between3(k.camera.viewUp, a.camera.viewUp, b.camera.viewUp)
            && Between(k.camera.viewAngle, a.camera.viewAngle, b.camera.viewAngle)
            && (a.sliceIndex <= b.sliceIndex ==> a.sliceIndex <= k.sliceIndex <= b.sliceIndex)
            && (b.sliceIndex <= a.sliceIndex ==> b.sliceIndex <= k.sliceIndex <= a.sliceIndex)
  {
    var u := LocalT(a, b, t);
    var e := ease(u);
    assert 0.0 <= e <= 1.0;
    var s := Lerp(a.sliceIndex as real, b.sliceIndex as real, e);
    if a.sliceIndex <= b.sliceIndex {
      RoundBetween(s, a.sliceIndex, b.sliceIndex);
    } else {
      RoundBetween(s, b.sliceIndex, a.sliceIndex);
    }
  }

  /**
   * The blend meets each keyframe at its own time: at `a`'s time it is `a`'s
   * pose and slice, at `b`'s time (for a non-empty span) it is `b`'s.
   */
  lemma InterpolateEndpoints(a: Keyframe, b: Keyframe, ease: real -> real)
    requires ValidEasing(ease)
    ensures Interpolate(a, b, a.timeSec, ease) == a
    ensures a.timeSec < b.timeSec ==> Interpolate(a, b, b.timeSec, ease) == b.(timeSec := b.timeSec)
  {
    assert Round(a.sliceIndex as real) == a.sliceIndex;
    assert Round(b.sliceIndex as real) == b.sliceIndex;
  }

  /**
   * Strictly inside the keyframe range the sample is an eased blend of a
   * bracketing pair of the sorted keyframes, and lies between them.
   */
  lemma SampleInterior(keyframes: seq<Keyframe>, t: real, ease: real -> real,
                       liveCamera: Option<CameraPose>, liveSlice: int)
    requires ValidEasing(ease)
    requires |keyframes| >= 2
    requires SortByTime(keyframes)[0].timeSec < t < SortByTime(keyframes)[|keyframes| - 1].timeSec
    ensures var sorted := SortByTime(keyframes);
            var r := SampleAtTime(keyframes, t, ease, liveCamera, liveSlice);
            exists i :: 0 <= i && i + 1 < |sorted| && Brackets(sorted, i, t)
                        && r == At(Interpolate(sorted[i], sorted[i + 1], t, ease))
                        && Between3(r.kf.camera.position, sorted[i].camera.position, sorted[i + 1].camera.position)
                        && Between(r.kf.camera.viewAngle, sorted[i].camera.viewAngle, sorted[i + 1].camera.viewAngle)
  {
    var sorted := SortByTime(keyframes);
    var r := SampleAtTime(keyframes, t, ease, liveCamera, liveSlice);
    var i :| 0 <= i && i + 1 < |sorted| && Brackets(sorted, i, t)
             && r == At(Interpolate(sorted[i], sorted[i + 1], t, ease));
    InterpolateBetween(sorted[i], sorted[i + 1], t, ease);
  }

  /**
   * Two keyframes ten seconds apart, sampled half way with an easing that
   * passes through (0.5, 0.5) as the cosine easing does: slice 15 and the
   * midpoint position.
   */
  lemma MidpointExample(ease: real -> real, pose: CameraPose)
    requires ValidEasing(ease) && ease(0.5) == 0.5
    ensures var a := Keyframe(0.0, pose.(position := Vec3(0.0, 0.0, 0.0)), 10);
            var b := Keyframe(10.0, pose.(position := Vec3(10.0, 0.0, 0.0)), 20);
            var r := SampleAtTime([a, b], 5.0, ease, None, 0);
            r.At? && r.kf.sliceIndex == 15 && r.kf.camera.position == Vec3(5.0, 0.0, 0.0)
  {
    var a := Keyframe(0.0, pose.(position := Vec3(0.0, 0.0, 0.0)), 10);
    var b := Keyframe(10.0, pose.(position := Vec3(10.0, 0.0, 0.0)), 20);
    assert SortByTime([a, b]) == [a, b];
    assert LocalT(a, b, 5.0) == 0.5;
  }

  // ---------------------------------------------------------------------
  // Applying a sample and authoring keyframes

  /** `Math.max(0, Math.min(maxSlice, s))`: the slice handed to the views. */
  function ClampSlice(s: int, maxSlice: int): (r: int)
    ensures r >= 0
    ensures maxSlice >= 0 ==> r <= maxSlice
    ensures 0 <= s <= maxSlice ==> r == s
    ensures s < 0 || maxSlice < 0 ==> r == 0
    ensures 0 <= maxSlice < s ==> r == maxSlice
  {
    var atMostMax := if maxSlice <= s then maxSlice else s;
    if atMostMax >= 0 then atMostMax else 0
  }

  /** What scrubbing to a time sets on the views: the camera when there is one, and the clamped slice. */
  datatype Applied = Applied(camera: Option<CameraPose>, slice: int)

  /** The slice a sample carries: the held live slice, or the keyframe's. */
  function SampleSlice(s: Sampled): int {
    match s
    case Hold(_, slice) => slice
    case At(kf) => kf.sliceIndex
  }

  /**
   * Applying a sample: the keyframe's camera, or the held live camera, and
   * the sample's slice, kept when it is in [0, maxSlice] and otherwise
   * pinned to the end it passed.
   */
  function ApplySample(s: Sampled, maxSlice: int): (r: Applied)
    ensures 0 <= r.slice && (maxSlice >= 0 ==> r.slice <= maxSlice)
    ensures 0 <= SampleSlice(s) <= maxSlice ==> r.slice == SampleSlice(s)
    ensures SampleSlice(s) < 0 || maxSlice < 0 ==> r.slice == 0
    ensures 0 <= maxSlice < SampleSlice(s) ==> r.slice == maxSlice
    ensures s.At? ==> r.camera == Some(s.kf.camera)
    ensures s.Hold? ==> r.camera == s.camera
  {
    match s
    case Hold(camera, slice) => Applied(camera, ClampSlice(slice, maxSlice))
    case At(kf) => Applied(Some(kf.camera), ClampSlice(kf.sliceIndex, maxSlice))
  }

  /**
   * `addKeyframe`: capture the live pose and slice at the current time,
   * clamped into [0, durationSec]; nothing happens without a live pose.
   */
  function AddKeyframe(keyframes: seq<Keyframe>, pose: Option<CameraPose>, liveSlice: int,
                       currentTime: real, durationSec: real): (r: seq<Keyframe>)
    ensures pose.None? ==> r == keyframes
    ensures pose.Some? ==> |r| == |keyframes| + 1 && r[..|keyframes|] == keyframes
    ensures pose.Some? ==> var k := r[|keyframes|];
              && k.camera == pose.value && k.sliceIndex == liveSlice
              && 0.0 <= k.timeSec
              && (durationSec >= 0.0 ==> k.timeSec <= durationSec)
              && (0.0 <= currentTime <= durationSec ==> k.timeSec == currentTime)
              && (0.0 <= durationSec < currentTime ==> k.timeSec == durationSec)
              && (currentTime < 0.0 || durationSec < 0.0 ==> k.timeSec == 0.0)
  {
    match pose
    case None => keyframes
    case Some(p) =>
      var k := Keyframe(Max(0.0, Min(durationSec, currentTime)), p, liveSlice);
      keyframes + [k]
  }
}

=== FILE: labels.dfy ===
/**
 * Per-voxel transforms over a segmentation's flat scalar buffer: the value
 * range, the catalogue of discrete labels, the binary mask of a label
 * selection, and the clamp of a probability field into [0, 1].
 */
module Labels {
  import opened Basics

  /**
   * A JavaScript number as far as these transforms can tell: a finite real
   * or one of the three non-finite values.
   */
  datatype Num = Fin(v: real) | PosInf | NegInf | NaN

  /** JavaScript `a < b`; every comparison involving NaN is false. */
  predicate Less(a: Num, b: Num) {
    match (a, b)
    case (Fin(x), Fin(y)) => x < y
    case (NegInf, Fin(_)) => true
    case (NegInf, PosInf) => true
    case (Fin(_), PosInf) => true
    case _ => false
  }

  /** `a <= b` on the extended reals (both operands other than NaN). */
  predicate AtMost(a: Num, b: Num) {
    a != NaN && b != NaN && (a == b || Less(a, b))
  }

  // ---------------------------------------------------------------------
  // computeMinMax

  /**
   * `computeMinMax`: one pass keeping the least and greatest element seen,
   * starting from (+Infinity, -Infinity). NaN elements never win a
   * comparison, so they are skipped.
   */
  method ComputeMinMax(a: seq<Num>) returns (min: Num, max: Num)
    ensures forall i :: 0 <= i < |a| && a[i] != NaN ==> AtMost(min, a[i]) && AtMost(a[i], max)
    ensures (exists i :: 0 <= i < |a| && a[i] != NaN) ==>
              (exists i :: 0 <= i < |a| && a[i] == min) && (exists j :: 0 <= j < |a| && a[j] == max)
    ensures (forall i :: 0 <= i < |a| ==> a[i] == NaN) ==> min == PosInf && max == NegInf
  {
    min := PosInf;
    max := NegInf;
    var i := 0;
    while i < |a|
      invariant 0 <= i <= |a|
      invariant min != NaN && max != NaN
      invariant forall k :: 0 <= k < i && a[k] != NaN ==> AtMost(min, a[k]) && AtMost(a[k], max)
      invariant min == PosInf || exists k :: 0 <= k < i && a[k] == min
      invariant max == NegInf || exists k :: 0 <= k < i && a[k] == max
      invariant (exists k :: 0 <= k < i && a[k] != NaN) ==>
                  (exists k :: 0 <= k < i && a[k] == min) && (exists k :: 0 <= k < i && a[k] == max)
      invariant (forall k :: 0 <= k < i ==> a[k] == NaN) ==> min == PosInf && max == NegInf
    {
      var v := a[i];
      if Less(v, min) { min := v; }
      if Less(max, v) { max := v; }
      i := i + 1;
    }
  }

  // ---------------------------------------------------------------------
  // extractUniqueLabels

  predicate StrictlyAscending(s: seq<int>) {
    forall i, j :: 0 <= i < j < |s| ==> s[i] < s[j]
  }

  /** Whether a rounded voxel value enters the catalogue. */
  predicate Counts(value: int, excludeZero: bool) {
    !excludeZero || value != 0
  }

  /** The distinct rounded values of `a` that the catalogue admits. */
  ghost function LabelSet(a: seq<real>, excludeZero: bool): set<int> {
    set i | 0 <= i < |a| && Counts(Round(a[i]), excludeZero) :: Round(a[i])
  }

  lemma LabelSetSnoc(a: seq<real>, x: real, excludeZero: bool)
    ensures LabelSet(a + [x], excludeZero)
            == LabelSet(a, excludeZero) + (if Counts(Round(x), excludeZero) then {Round(x)} else {})
  {
    var b := a + [x];
    assert forall i :: 0 <= i < |a| ==> b[i] == a[i];
    assert b[|a|] == x;
  }

  /** Insert `x` into a strictly ascending sequence, keeping it a set. */
  function Insert(s: seq<int>, x: int): (r: seq<int>)
    requires StrictlyAscending(s)
    ensures StrictlyAscending(r)
    ensures forall k :: k in r <==> k in s || k == x
    ensures (set k | k in r) == (set k | k in s) + {x}
    ensures |r| == if x in s then |s| else |s| + 1
  {
    if |s| == 0 then [x]
    else if x < s[0] then [x] + s
    else if x == s[0] then s
    else
      var rest := Insert(s[1..], x);
      assert forall k :: k in s <==> k == s[0] || k in s[1..];
      assert forall k :: 0 <= k < |rest| ==> rest[k] in rest;
      assert forall k :: 0 <= k < |rest| ==> s[0] < rest[k];
      [s[0]] + rest
  }

  /**
   * The scan of `extractUniqueLabels` from voxel `i` on, with the labels
   * found so far kept sorted in `found`: round each voxel, skip zero when
   * asked to, add it, and stop as soon as more than `maxUnique` labels are
   * known.
   */
  function Scan(a: seq<real>, i: nat, found: seq<int>, excludeZero: bool, maxUnique: nat): (r: seq<int>)
    requires i <= |a|
    requires StrictlyAscending(found) && |found| <= maxUnique
    requires (set k | k in found) == LabelSet(a[..i], excludeZero)
    ensures StrictlyAscending(r)
    ensures |r| <= maxUnique + 1
    ensures exists j :: i <= j <= |a| && (set k | k in r) == LabelSet(a[..j], excludeZero)
                         && (j < |a| ==> |r| == maxUnique + 1)
    decreases |a| - i
  {
    if i == |a| then
      assert a[..i] == a;
      found
    else
      var v := Round(a[i]);
      assert a[..i + 1] == a[..i] + [a[i]];
      LabelSetSnoc(a[..i], a[i], excludeZero);
      if !Counts(v, excludeZero) then Scan(a, i + 1, found, excludeZero, maxUnique)
      else
        var next := Insert(found, v);
        if |next| > maxUnique then next
        else Scan(a, i + 1, next, excludeZero, maxUnique)
  }

  /**
   * `extractUniqueLabels`: the catalogue of labels, ascending and without
   * repeats. Discovery stops once the cap is exceeded, so the catalogue is
   * complete whenever it holds at most `maxUnique` labels.
   */
  function ExtractUniqueLabels(a: seq<real>, excludeZero: bool, maxUnique: nat): (labels: seq<int>)
    ensures StrictlyAscending(labels)
    ensures forall j :: 0 <= j < |labels| ==> exists i :: 0 <= i < |a| && Round(a[i]) == labels[j]
    ensures excludeZero ==> 0 !in labels
    ensures |labels| <= maxUnique + 1
    ensures |labels| <= maxUnique ==>
              forall i :: 0 <= i < |a| && Counts(Round(a[i]), excludeZero) ==> Round(a[i]) in labels
  {
    assert a[..0] == [];
    var labels := Scan(a, 0, [], excludeZero, maxUnique);
    CatalogueFacts(a, excludeZero, maxUnique, labels);
    assert forall j :: 0 <= j < |labels| ==> labels[j] in labels;
    labels
  }

  /** What a scan result's set of labels tells about the buffer it came from. */
  lemma CatalogueFacts(a: seq<real>, excludeZero: bool, maxUnique: nat, labels: seq<int>)
    requires exists j :: 0 <= j <= |a| && (set k | k in labels) == LabelSet(a[..j], excludeZero)
                         && (j < |a| ==> |labels| == maxUnique + 1)
    ensures forall l :: l in labels ==> Counts(l, excludeZero)
    ensures forall l :: l in labels ==> exists i :: 0 <= i < |a| && Round(a[i]) == l
    ensures |labels| <= maxUnique ==>
              forall i :: 0 <= i < |a| && Counts(Round(a[i]), excludeZero) ==> Round(a[i]) in labels
  {
    var j :| 0 <= j <= |a| && (set k | k in labels) == LabelSet(a[..j], excludeZero)
             && (j < |a| ==> |labels| == maxUnique + 1);
    forall l | l in labels
      ensures Counts(l, excludeZero)
      ensures exists i :: 0 <= i < |a| && Round(a[i]) == l
    {
      assert l in LabelSet(a[..j], excludeZero);
      var i :| 0 <= i < j && Counts(Round(a[..j][i]), excludeZero) && Round(a[..j][i]) == l;
      assert a[..j][i] == a[i];
    }
    if |labels| <= maxUnique {
      assert a[..j] == a;
      forall i | 0 <= i < |a| && Counts(Round(a[i]), excludeZero)
        ensures Round(a[i]) in labels
      {
        assert Round(a[i]) in LabelSet(a, excludeZero);
      }
    }
  }

  // ---------------------------------------------------------------------
  // buildBinaryMask

  /**
   * `buildBinaryMask`: 1 at each voxel whose rounded value is a selected
   * label, 0 elsewhere.
   */
  function BinaryMask(a: seq<real>, selected: set<int>): (m: seq<real>)
    ensures |m| == |a|
    ensures forall i :: 0 <= i < |a| ==> m[i] == 0.0 || m[i] == 1.0
    ensures forall i :: 0 <= i < |a| ==> (m[i] == 1.0 <==> Round(a[i]) in selected)
  {
    seq(|a|, i requires 0 <= i < |a| => if Round(a[i]) in selected then 1.0 else 0.0)
  }

  /** Selecting more labels never clears a voxel of the mask. */
  lemma MaskMonotone(a: seq<real>, s1: set<int>, s2: set<int>)
    requires s1 <= s2
    ensures forall i :: 0 <= i < |a| ==> BinaryMask(a, s1)[i] <= BinaryMask(a, s2)[i]
  {
  }

  // ---------------------------------------------------------------------
  // clamp01Array

  /**
   * One voxel of `clamp01Array`: non-finite values become 0; integral values
   * in (1, 255] are read as bytes and scaled by 1/255; the result is then
   * clamped into [0, 1].
   */
  function Clamp01Value(x: Num): (r: real)
    ensures 0.0 <= r <= 1.0
    ensures !x.Fin? ==> r == 0.0
    ensures x.Fin? && 0.0 <= x.v <= 1.0 ==> r == x.v
    ensures x.Fin? && x.v < 0.0 ==> r == 0.0
    ensures x.Fin? && 1.0 < x.v <= 255.0 && IsInteger(x.v) ==> r == x.v / 255.0
    ensures x.Fin? && 1.0 < x.v && !IsInteger(x.v) ==> r == 1.0
    ensures x.Fin? && x.v > 255.0 ==> r == 1.0
  {
    var v := if x.Fin? then x.v else 0.0;
    var scaled := if v > 1.0 && v <= 255.0 && IsInteger(v) then v / 255.0 else v;
    Clamp01(scaled)
  }

  /** `clamp01Array`: the probability field, voxel by voxel. */
  function Clamp01Array(a: seq<Num>): (r: seq<real>)
    ensures |r| == |a|
    ensures forall i :: 0 <= i < |a| ==> 0.0 <= r[i] <= 1.0 && r[i] == Clamp01Value(a[i])
  {
    seq(|a|, i requires 0 <= i < |a| => Clamp01Value(a[i]))
  }

  /** Clamping a field that is already a probability field changes nothing. */
  lemma Clamp01Idempotent(x: Num)
    ensures Clamp01Value(Fin(Clamp01Value(x))) == Clamp01Value(x)
  {
  }

  /**
   * The byte heuristic makes the clamp non-monotone: 1.5 saturates to 1
   * while the larger 2 is read as the byte 2/255.
   */
  lemma Clamp01NotMonotone()
    ensures Clamp01Value(Fin(1.5)) == 1.0
    ensures Clamp01Value(Fin(2.0)) == 2.0 / 255.0
  {
    assert !IsInteger(1.5);
    assert IsInteger(2.0);
  }
}

=== FILE: quality.dfy ===
/**
 * The 3D view's render-quality controller: three parameter tuples, the
 * interaction state machine that switches between them, and two small
 * geometry helpers of the same view (the world z of a slice and the spacing
 * of the turbo colour map's control points).
 *
 * The renderer itself is outside the model: "applying" a mode is recorded
 * by appending it to the controller's `applied` log, and a camera-modified
 * notification runs its animation-frame body at once.
 */
module Quality {
  import opened Basics

  datatype RenderMode = QualityMode | HighPerfStill | HighPerfInteraction

  datatype Settings = Settings(sampleDistance: real, maxSamplesPerRay: int, shade: bool,
                               depthPeeling: bool, maxPeels: int, occlusionRatio: real)

  /** The fidelity parameters other than the ray sample distance. */
  predicate SameExceptDistance(a: Settings, b: Settings) {
    a.(sampleDistance := 0.0) == b.(sampleDistance := 0.0)
  }

  /**
   * `get3DSettingsForMode`: the parameter tuple of a mode for a volume whose
   * largest spacing component is `smax`.
   */
  function SettingsFor(spacing: Vec3, mode: RenderMode): (s: Settings)
    ensures mode == HighPerfInteraction ==>
              s == Settings(Max3(spacing) * 1.8, 512, false, false, 30, 0.4)
    ensures mode == HighPerfStill ==> s.sampleDistance == Max3(spacing) * 0.25
    ensures mode == QualityMode ==> s.sampleDistance == Max3(spacing) * 0.1
    ensures mode != HighPerfInteraction ==>
              s.maxSamplesPerRay == 8192 && s.shade && s.depthPeeling
              && s.maxPeels == 400 && s.occlusionRatio == 0.05
  {
    var smax := Max3(spacing);
    match mode
    case HighPerfInteraction => Settings(smax * 1.8, 512, false, false, 30, 0.4)
    case HighPerfStill => Settings(smax * 0.25, 8192, true, true, 400, 0.05)
    case QualityMode => Settings(smax * 0.1, 8192, true, true, 400, 0.05)
  }

  /**
   * Idle rendering in high-performance mode shares every parameter with
   * quality mode except the sample distance, which is 2.5 times coarser
   * for any volume with positive spacing.
   */
  lemma StillVersusQuality(spacing: Vec3)
    ensures SameExceptDistance(SettingsFor(spacing, HighPerfStill), SettingsFor(spacing, QualityMode))
    ensures SettingsFor(spacing, HighPerfStill).sampleDistance
            == 2.5 * SettingsFor(spacing, QualityMode).sampleDistance
    ensures Max3(spacing) > 0.0 ==>
              SettingsFor(spacing, HighPerfStill) != SettingsFor(spacing, QualityMode)
  {
  }

  /** Interaction trades fidelity for speed on every parameter. */
  lemma InteractionIsCoarser(spacing: Vec3, idle: RenderMode)
    requires idle != HighPerfInteraction
    requires Max3(spacing) > 0.0
    ensures var fast := SettingsFor(spacing, HighPerfInteraction);
            var slow := SettingsFor(spacing, idle);
            && fast.sampleDistance > slow.sampleDistance
            && fast.maxSamplesPerRay < slow.maxSamplesPerRay
            && !fast.shade && slow.shade
            && !fast.depthPeeling && slow.depthPeeling
  {
  }

  /** The render-size scale: reduced only while interacting. */
  function ResolutionScale(mode: RenderMode): real {
    if mode == HighPerfInteraction then 0.75 else 1.0
  }

  /** `Math.max(1, Math.floor(client * scale))` for one side of the render window. */
  function RenderSize(client: real, mode: RenderMode): (n: int)
    ensures n >= 1
    ensures mode != HighPerfInteraction && client >= 1.0 ==> n == client.Floor
    ensures mode == HighPerfInteraction && client >= 0.0 ==> n == 1 || n <= client.Floor
    ensures mode == HighPerfInteraction && client >= 4.0 ==> n < client.Floor
  {
    var scaled := (client * ResolutionScale(mode)).Floor;
    if scaled >= 1 then scaled else 1
  }

  // ---------------------------------------------------------------------
  // The interaction state machine

  /**
   * The controller's state: the toggle (`highPerfRef`), the interacting
   * flag, whether the single 100 ms idle timer is pending, and every mode
   * `applySettingsForMode` has been called with so far.
   */
  datatype Controller = Controller(highPerf: bool, isInteracting: bool, timerPending: bool,
                                   applied: seq<RenderMode>)

  datatype Event =
    | CamModified          // the camera's modified notification
    | TimerFire            // the idle timer elapses
    | Toggle(on: bool)     // the high-performance checkbox changes
    | ApplyQualityMode     // the imperative `applyQualityMode` handle

  const IdleDelayMs: nat := 100

  /**
   * The controller before the 3D view mounts. The toggle effect also runs
   * once at mount, after the renderer exists, and applies quality; a run
   * that models the mounted view therefore starts with `Toggle(false)`.
   */
  const Initial := Controller(false, false, false, [])

  /** The mode `applySettingsForMode` was last called with, if any. */
  function Current(c: Controller): Option<RenderMode> {
    if |c.applied| == 0 then None else Some(c.applied[|c.applied| - 1])
  }

  function Step(c: Controller, e: Event): (d: Controller)
    // camera events are ignored unless high performance is on
    ensures e == CamModified && !c.highPerf ==> d == c
    // the first event enters interaction and applies its settings once;
    // every event (re)schedules the single idle timer
    ensures e == CamModified && c.highPerf ==>
              && d.highPerf && d.isInteracting && d.timerPending
              && d.applied == c.applied + (if c.isInteracting then [] else [HighPerfInteraction])
    // the idle timer leaves interaction and applies the still settings
    ensures e == TimerFire && c.timerPending ==>
              d == Controller(c.highPerf, false, false, c.applied + [HighPerfStill])
    ensures e == TimerFire && !c.timerPending ==> d == c
    // the toggle applies the idle mode for its new value and touches nothing else
    ensures e.Toggle? ==>
              d == c.(highPerf := e.on, applied := c.applied + [if e.on then HighPerfStill else QualityMode])
    ensures e == ApplyQualityMode ==> d == c.(applied := c.applied + [QualityMode])
  {
    match e
    case CamModified =>
      if !c.highPerf then c
      else
        var entered := if c.isInteracting then c.applied else c.applied + [HighPerfInteraction];
        Controller(true, true, true, entered)
    case TimerFire =>
      if c.timerPending then Controller(c.highPerf, false, false, c.applied + [HighPerfStill]) else c
    case Toggle(on) =>
      c.(highPerf := on, applied := c.applied + [if on then HighPerfStill else QualityMode])
    case ApplyQualityMode =>
      c.(applied := c.applied + [QualityMode])
  }

  function Run(c: Controller, events: seq<Event>): Controller
    decreases |events|
  {
    if |events| == 0 then c else Run(Step(c, events[0]), events[1..])
  }

  /** The timer is pending exactly while the view counts as interacting. */
  predicate TimerTracksInteraction(c: Controller) {
    c.isInteracting <==> c.timerPending
  }

  lemma {:induction false} RunKeepsTimerTracking(c: Controller, events: seq<Event>)
    requires TimerTracksInteraction(c)
    ensures TimerTracksInteraction(Run(c, events))
    decreases |events|
  {
    if |events| > 0 {
      RunKeepsTimerTracking(Step(c, events[0]), events[1..]);
    }
  }

  /** The modes a run appends to the log are those after the starting log. */
  lemma {:induction false} RunExtendsLog(c: Controller, events: seq<Event>)
    ensures |Run(c, events).applied| >= |c.applied|
    ensures Run(c, events).applied[..|c.applied|] == c.applied
    decreases |events|
  {
    if |events| > 0 {
      var d := Step(c, events[0]);
      RunExtendsLog(d, events[1..]);
      assert d.applied[..|c.applied|] == c.applied;
    }
  }

  /**
   * With the toggle off and no idle timer pending, no sequence of camera
   * events, timer events, `applyQualityMode` calls or further switch-offs
   * ever applies anything but the quality settings.
   */
  lemma {:induction false} OffStaysQuality(c: Controller, events: seq<Event>)
    requires !c.highPerf && !c.timerPending
    requires forall k :: 0 <= k < |events| ==> events[k] != Toggle(true)
    ensures var d := Run(c, events);
            && !d.highPerf && !d.timerPending
            && |d.applied| >= |c.applied|
            && forall k :: |c.applied| <= k < |d.applied| ==> d.applied[k] == QualityMode
    decreases |events|
  {
    if |events| > 0 {
      var d := Step(c, events[0]);
      assert d.applied[..|c.applied|] == c.applied;
      assert forall k :: |c.applied| <= k < |d.applied| ==> d.applied[k] == QualityMode;
      OffStaysQuality(d, events[1..]);
      RunExtendsLog(d, events[1..]);
    }
  }

  /**
   * High-performance interaction settings are only ever applied by a camera
   * event while the toggle is on: a run whose toggle stays off never
   * applies them, pending timer or not.
   */
  lemma {:induction false} OffNeverInteracts(c: Controller, events: seq<Event>)
    requires !c.highPerf
    requires forall k :: 0 <= k < |events| ==> events[k] != Toggle(true)
    ensures var d := Run(c, events);
            && |d.applied| >= |c.applied|
            && forall k :: |c.applied| <= k < |d.applied| ==> d.applied[k] != HighPerfInteraction
    decreases |events|
  {
    if |events| > 0 {
      var d := Step(c, events[0]);
      assert d.applied[..|c.applied|] == c.applied;
      OffNeverInteracts(d, events[1..]);
      RunExtendsLog(d, events[1..]);
    }
  }

  /**
   * One camera event with high performance on, then the idle timer: the
   * view is back to the still settings, and interaction was applied once.
   */
  lemma SettleAfterInteraction(c: Controller)
    requires c.highPerf && !c.isInteracting
    ensures var d := Run(c, [CamModified, TimerFire]);
            && !d.isInteracting && !d.timerPending
            && d.applied == c.applied + [HighPerfInteraction, HighPerfStill]
            && Current(d) == Some(HighPerfStill)
  {
  }

  /**
   * Further camera events while interacting re-arm the timer but apply
   * nothing: a burst of events costs one switch into interaction.
   */
  lemma {:induction false} BurstAppliesOnce(c: Controller, n: nat)
    requires c.highPerf && c.isInteracting
    ensures n > 0 ==> Run(c, seq(n, _ => CamModified)) == c.(timerPending := true)
    decreases n
  {
    if n > 0 {
      var d := Step(c, CamModified);
      assert d == c.(timerPending := true);
      assert seq(n, _ => CamModified)[1..] == seq(n - 1, _ => CamModified);
      BurstAppliesOnce(d, n - 1);
    }
  }

  /**
   * The toggle does not cancel the idle timer: switching high performance
   * off mid-interaction lets the pending timer apply the still settings
   * while the toggle is off. The run starts with the mount's quality call.
   */
  lemma StaleTimerAfterSwitchOff()
    ensures var d := Run(Initial, [Toggle(false), Toggle(true), CamModified, Toggle(false), TimerFire]);
            && !d.highPerf
            && d.applied == [QualityMode, HighPerfStill, HighPerfInteraction, QualityMode, HighPerfStill]
            && Current(d) == Some(HighPerfStill)
  {
  }

  // ---------------------------------------------------------------------
  // Geometry helpers of the 3D view

  /**
   * `getWorldZAtSlice`: no image, no answer; otherwise the world z of slice
   * `k` clamped into the image's z range.
   */
  function WorldZAtSlice(image: Option<Geometry>, k: int): (z: Option<real>)
    ensures image.None? <==> z.None?
    ensures image.Some? && 0 <= k < image.value.dims.nz ==>
              z.value == image.value.origin.z + k as real * image.value.spacing.z
    ensures image.Some? && k < 0 && image.value.dims.nz >= 1 ==> z.value == image.value.origin.z
    ensures image.Some? && k >= image.value.dims.nz ==>
              z.value == image.value.origin.z + (image.value.dims.nz - 1) as real * image.value.spacing.z
  {
    match image
    case None => None
    case Some(g) =>
      Some(g.origin.z + ClampInt(k, 0, g.dims.nz - 1) as real * g.spacing.z)
  }

  lemma WorldZMonotone(g: Geometry, k1: int, k2: int)
    requires g.spacing.z >= 0.0 && k1 <= k2
    ensures WorldZAtSlice(Some(g), k1).value <= WorldZAtSlice(Some(g), k2).value
  {
    ScaleMonotone(ClampInt(k1, 0, g.dims.nz - 1), ClampInt(k2, 0, g.dims.nz - 1), g.spacing.z);
  }

  function ControlPoints(n: nat): (ts: seq<real>)
    ensures |ts| == n
    ensures n == 1 ==> ts == [0.0]
    ensures n >= 2 ==> ts[0] == 0.0 && ts[n - 1] == 1.0
    ensures forall i, j :: 0 <= i < j < n ==> ts[i] < ts[j]
    ensures forall i :: 0 <= i < n ==> 0.0 <= ts[i] <= 1.0
  {
    var ts := seq(n, i requires 0 <= i < n => if n > 1 then i as real / (n - 1) as real else 0.0);
    FractionsFacts(n, ts);
    ts
  }

  /** The evenly spaced fractions i / (n - 1) run strictly upwards from 0 to 1. */
  lemma FractionsFacts(n: nat, ts: seq<real>)
    requires |ts| == n
    requires forall i :: 0 <= i < n ==> ts[i] == if n > 1 then i as real / (n - 1) as real else 0.0
    ensures n >= 2 ==> ts[0] == 0.0 && ts[n - 1] == 1.0
    ensures forall i, j :: 0 <= i < j < n ==> ts[i] < ts[j]
    ensures forall i :: 0 <= i < n ==> 0.0 <= ts[i] <= 1.0
  {
    if n > 1 {
      var d := (n - 1) as real;
      assert ts[n - 1] == d / d == 1.0;
      assert ts[0] == 0.0 / d == 0.0;
    }
    forall i, j | 0 <= i < j < n
      ensures ts[i] < ts[j]
    {
      DivideStrict(i, j, n - 1);
    }
    forall i | 0 <= i < n
      ensures 0.0 <= ts[i] <= 1.0
    {
      if 0 < i < n - 1 {
        DivideStrict(0, i, n - 1);
        DivideStrict(i, n - 1, n - 1);
      }
    }
  }

  /** Dividing by a positive count keeps two integers in strict order. */
  lemma DivideStrict(i: int, j: int, d: int)
    requires i < j && d > 0
    ensures i as real / d as real < j as real / d as real
  {
    var q := j as real / d as real - i as real / d as real;
    assert q * d as real == (j - i) as real;
  }
}

=== FILE: recording.dfy ===
/**
 * The frame exporter of the recording panel: how many frames an export
 * writes, the timeline time of each frame, the file name of each frame, and
 * the export loop that samples the keyframes, captures the 3D view and
 * writes one TGA file per frame in index order.
 *
 * The directory handle, the canvas readback and the file writes are outside
 * the model: whether a folder was chosen is a flag, a capture is a function
 * of what the view shows (failing with `None`), and whether a write
 * succeeds is a function of the file name.
 */
module Recording {
  import opened Basics
  import opened Tga
  import opened Keyframes
  import opened Quality

  // ---------------------------------------------------------------------
  // Frame count and frame times

  /** `Math.max(1, Math.round(durationSec * framerate))`. */
  function FrameCount(durationSec: real, framerate: int): (n: nat)
    ensures n >= 1
    ensures durationSec * framerate as real >= 0.5 ==>
              durationSec * framerate as real - 0.5 < n as real <= durationSec * framerate as real + 0.5
    ensures durationSec * framerate as real < 0.5 ==> n == 1
  {
    var r := Round(durationSec * framerate as real);
    if r >= 1 then r else 1
  }

  /** `(f / Math.max(1, totalFrames - 1)) * durationSec`. */
  function FrameTime(f: nat, totalFrames: nat, durationSec: real): real {
    var denominator := if totalFrames - 1 >= 1 then totalFrames - 1 else 1;
    (f as real / denominator as real) * durationSec
  }

  /**
   * The export timeline starts at 0, ends at the duration on its last frame
   * (when there is more than one), and never runs backwards or past either
   * end for a non-negative duration.
   */
  lemma FrameTimeBounds(totalFrames: nat, durationSec: real)
    ensures FrameTime(0, totalFrames, durationSec) == 0.0
    ensures totalFrames > 1 ==> FrameTime(totalFrames - 1, totalFrames, durationSec) == durationSec
    ensures durationSec >= 0.0 ==>
              forall f :: 0 <= f < totalFrames ==> 0.0 <= FrameTime(f, totalFrames, durationSec) <= durationSec
  {
    if durationSec >= 0.0 {
      forall f | 0 <= f < totalFrames
        ensures 0.0 <= FrameTime(f, totalFrames, durationSec) <= durationSec
      {
        var d := if totalFrames - 1 >= 1 then totalFrames - 1 else 1;
        var u := f as real / d as real;
        assert 0.0 <= u <= 1.0;
        ScaleBetween(durationSec, u, u * durationSec);
      }
    }
  }

  lemma FrameTimeMonotone(f: nat, g: nat, totalFrames: nat, durationSec: real)
    requires f <= g && durationSec >= 0.0
    ensures FrameTime(f, totalFrames, durationSec) <= FrameTime(g, totalFrames, durationSec)
  {
    var d := if totalFrames - 1 >= 1 then totalFrames - 1 else 1;
    var u := f as real / d as real;
    var v := g as real / d as real;
    assert u <= v;
    MulNonNegative(v - u, durationSec);
    assert (v - u) * durationSec == v * durationSec - u * durationSec;
  }

  /** Two seconds at ten frames per second: twenty frames, 2/19 s apart. */
  lemma TwentyFrames()
    ensures FrameCount(2.0, 10) == 20
    ensures FrameTime(1, 20, 2.0) == 2.0 / 19.0
    ensures FrameTime(19, 20, 2.0) == 2.0
  {
    assert Round(20.0) == 20;
  }

  // ---------------------------------------------------------------------
  // Frame file names

  /** The character of a decimal digit. */
  function DigitChar(d: nat): (c: char)
    requires d < 10
    ensures '0' <= c <= '9'
  {
    ['0', '1', '2', '3', '4', '5', '6', '7', '8', '9'][d]
  }

  function CharValue(c: char): nat
    requires '0' <= c <= '9'
  {
    c as int - '0' as int
  }

  predicate AllDigits(s: seq<char>) {
    forall k :: 0 <= k < |s| ==> '0' <= s[k] <= '9'
  }

  /** `String(n)` for a non-negative integer: decimal, no leading zeros. */
  function Decimal(n: nat): (s: seq<char>)
    ensures 1 <= |s| && AllDigits(s)
    ensures n < 10 <==> |s| == 1
    ensures n < 100 ==> |s| <= 2
    ensures n < 1000 ==> |s| <= 3
    ensures n < 10000 ==> |s| <= 4
    ensures n < 100000 ==> |s| <= 5
  {
    if n < 10 then [DigitChar(n)] else Decimal(n / 10) + [DigitChar(n % 10)]
  }

  /** The value of a string of decimal digits, leading zeros allowed. */
  function DigitsValue(s: seq<char>): nat
    requires AllDigits(s)
  {
    if |s| == 0 then 0 else 10 * DigitsValue(s[..|s| - 1]) + CharValue(s[|s| - 1])
  }

  /** `s.padStart(width, '0')`. */
  function PadStart(s: seq<char>, width: nat): (p: seq<char>)
    ensures |s| >= width ==> p == s
    ensures |s| < width ==> |p| == width && p[width - |s|..] == s
    ensures forall k :: 0 <= k < |p| - |s| ==> p[k] == '0'
  {
    if |s| >= width then s else seq(width - |s|, _ => '0') + s
  }

  /** `String(f).padStart(5, '0')`. */
  function Pad5(f: nat): (p: seq<char>)
    ensures AllDigits(p)
    ensures |p| >= 5
    ensures f < 100000 ==> |p| == 5
  {
    PadStart(Decimal(f), 5)
  }

  /** `frame_${pad5(f)}.tga`. */
  function FrameName(f: nat): (name: string)
    ensures |name| >= 15
    ensures name[..6] == "frame_" && name[|name| - 4..] == ".tga"
    ensures name[6..|name| - 4] == Pad5(f)
    ensures f < 100000 ==> |name| == 15
  {
    "frame_" + Pad5(f) + ".tga"
  }

  lemma {:induction false} DecimalValue(n: nat)
    ensures DigitsValue(Decimal(n)) == n
  {
    if n >= 10 {
      var s := Decimal(n);
      assert s[..|s| - 1] == Decimal(n / 10);
      DecimalValue(n / 10);
    }
  }

  lemma {:induction false} ZerosValue(z: seq<char>)
    requires forall k :: 0 <= k < |z| ==> z[k] == '0'
    ensures DigitsValue(z) == 0
  {
    if |z| > 0 {
      ZerosValue(z[..|z| - 1]);
    }
  }

  lemma {:induction false} LeadingZerosValue(z: seq<char>, s: seq<char>)
    requires forall k :: 0 <= k < |z| ==> z[k] == '0'
    requires AllDigits(s)
    ensures DigitsValue(z + s) == DigitsValue(s)
    decreases |s|
  {
    if |s| == 0 {
      assert z + s == z;
      ZerosValue(z);
    } else {
      assert (z + s)[..|z + s| - 1] == z + s[..|s| - 1];
      LeadingZerosValue(z, s[..|s| - 1]);
    }
  }

  /** The padded frame number reads back as the frame number. */
  lemma Pad5Value(f: nat)
    ensures DigitsValue(Pad5(f)) == f
  {
    var s := Decimal(f);
    DecimalValue(f);
    if |s| < 5 {
      LeadingZerosValue(seq(5 - |s|, _ => '0'), s);
    }
  }

  /** Distinct frames get distinct files, so no frame overwrites another. */
  lemma FrameNameInjective(f: nat, g: nat)
    ensures FrameName(f) == FrameName(g) <==> f == g
  {
    if FrameName(f) == FrameName(g) {
      Pad5Value(f);
      Pad5Value(g);
    }
  }

  lemma FrameNameExamples()
    ensures FrameName(0) == "frame_00000.tga"
    ensures FrameName(42) == "frame_00042.tga"
  {
    assert Decimal(42) == Decimal(4) + ['2'];
  }

  // ---------------------------------------------------------------------
  // The export loop

  datatype Outcome = NoFolder | NoKeyframes | Completed | Failed(frame: nat)

  datatype FileWrite = FileWrite(name: string, data: seq<byte>)

  /** What the 3D view shows when a frame is captured. */
  datatype Shot = Shot(view: Applied, mode: Option<RenderMode>)

  /**
   * The recording panel's settings and the live view an export starts
   * from: keyframes, duration, frame rate, output size, the slice range,
   * the easing, and the camera and slice sampling holds when there are no
   * keyframes.
   */
  datatype Job = Job(keyframes: seq<Keyframe>, durationSec: real, framerate: int,
                     width: nat, height: nat, maxSlice: int, ease: real -> real,
                     liveCamera: Option<CameraPose>, liveSlice: int)

  function TotalFrames(job: Job): nat {
    FrameCount(job.durationSec, job.framerate)
  }

  /**
   * The view frame `f` shows: the camera and slice of the keyframe sample at
   * its time, or the live ones without keyframes, with the slice clamped.
   */
  function FrameView(job: Job, f: nat): (v: Applied)
    ensures |job.keyframes| >= 1 ==>
              var kf := SampleAtTime(job.keyframes, FrameTime(f, TotalFrames(job), job.durationSec),
                                     job.ease, job.liveCamera, job.liveSlice).kf;
              v.camera == Some(kf.camera) && v.slice == ClampSlice(kf.sliceIndex, job.maxSlice)
    ensures |job.keyframes| == 0 ==>
              v.camera == job.liveCamera && v.slice == ClampSlice(job.liveSlice, job.maxSlice)
    ensures 0 <= v.slice && (job.maxSlice >= 0 ==> v.slice <= job.maxSlice)
  {
    var t := FrameTime(f, TotalFrames(job), job.durationSec);
    ApplySample(SampleAtTime(job.keyframes, t, job.ease, job.liveCamera, job.liveSlice), job.maxSlice)
  }

  /**
   * What the loop needs of a job: how many frames, the view of each frame,
   * the file name of each frame, and the encoder of a capture.
   */
  datatype Plan = Plan(total: nat, view: nat -> Applied, name: nat -> string,
                       encode: seq<byte> -> seq<byte>)

  /** `plan` is the plan of `job`: the job's frame count, frame views, frame names and encoder. */
  ghost predicate PlanOf(plan: Plan, job: Job) {
    && plan.total == TotalFrames(job)
    && (forall f: nat :: plan.view(f) == FrameView(job, f))
    && (forall f: nat :: plan.name(f) == FrameName(f))
    && (forall rgba: seq<byte> :: plan.encode(rgba) == EncodeBytes(job.width, job.height, rgba))
  }

  /** The first `n` frames as an export captures them, all in `mode`. */
  function Shots(plan: Plan, n: nat, mode: RenderMode): (s: seq<Shot>)
    ensures |s| == n
  {
    if n == 0 then [] else Shots(plan, n - 1, mode) + [Shot(plan.view(n - 1), Some(mode))]
  }

  lemma {:induction false} ShotsAt(plan: Plan, n: nat, mode: RenderMode, k: nat)
    requires k < n
    ensures Shots(plan, n, mode)[k] == Shot(plan.view(k), Some(mode))
  {
    if k < n - 1 {
      ShotsAt(plan, n - 1, mode, k);
    }
  }

  /** The file of frame `k` from its capture (empty pixels if the capture failed). */
  function FileFor(plan: Plan, k: nat, s: Shot, capture: Shot -> Option<seq<byte>>): FileWrite {
    var rgba := if capture(s).Some? then capture(s).value else [];
    FileWrite(plan.name(k), plan.encode(rgba))
  }

  /** The files written for a sequence of captured frames, in frame order. */
  function Files(plan: Plan, shots: seq<Shot>, capture: Shot -> Option<seq<byte>>): (w: seq<FileWrite>)
    ensures |w| == |shots|
  {
    if |shots| == 0 then []
    else Files(plan, shots[..|shots| - 1], capture) + [FileFor(plan, |shots| - 1, shots[|shots| - 1], capture)]
  }

  lemma {:induction false} FilesAt(plan: Plan, shots: seq<Shot>, capture: Shot -> Option<seq<byte>>, k: nat)
    requires k < |shots|
    ensures Files(plan, shots, capture)[k] == FileFor(plan, k, shots[k], capture)
    decreases |shots|
  {
    if k < |shots| - 1 {
      var prefix := shots[..|shots| - 1];
      FilesAt(plan, prefix, capture, k);
      assert prefix[k] == shots[k];
    }
  }

  /** Every frame of `shots` was captured and its file written. */
  predicate Saved(plan: Plan, shots: seq<Shot>, capture: Shot -> Option<seq<byte>>, writeSucceeds: string -> bool)
    decreases |shots|
  {
    |shots| == 0
    || (&& Saved(plan, shots[..|shots| - 1], capture, writeSucceeds)
        && capture(shots[|shots| - 1]).Some?
        && writeSucceeds(plan.name(|shots| - 1)))
  }

  lemma {:induction false} SavedAt(plan: Plan, shots: seq<Shot>, capture: Shot -> Option<seq<byte>>,
                                   writeSucceeds: string -> bool, k: nat)
    requires Saved(plan, shots, capture, writeSucceeds) && k < |shots|
    ensures capture(shots[k]).Some? && writeSucceeds(plan.name(k))
    decreases |shots|
  {
    if k < |shots| - 1 {
      var prefix := shots[..|shots| - 1];
      SavedAt(plan, prefix, capture, writeSucceeds, k);
      assert prefix[k] == shots[k];
    }
  }

  /** Frame `k` was written: its file name, a successful capture and write, and the encoded capture. */
  predicate Written(job: Job, k: nat, w: FileWrite, s: Shot,
                    capture: Shot -> Option<seq<byte>>, writeSucceeds: string -> bool) {
    && w.name == FrameName(k)
    && capture(s).Some?
    && writeSucceeds(FrameName(k))
    && w.data == EncodeBytes(job.width, job.height, capture(s).value)
  }

  /** Each shot shows the keyframe sample at its own frame's time, in `mode`. */
  predicate ShowsSamples(job: Job, shots: seq<Shot>, mode: RenderMode) {
    forall f :: 0 <= f < |shots| ==> shots[f] == Shot(FrameView(job, f), Some(mode))
  }

  /** Each write is frame `f`'s file: its name, and the encoding of the capture of shot `f`. */
  predicate WritesFrames(job: Job, writes: seq<FileWrite>, shots: seq<Shot>,
                         capture: Shot -> Option<seq<byte>>, writeSucceeds: string -> bool) {
    && |writes| <= |shots|
    && forall f :: 0 <= f < |writes| ==> Written(job, f, writes[f], shots[f], capture, writeSucceeds)
  }

  /** The mode every frame of an export is captured in, given the controller it starts from. */
  function ExportMode(ctl: Controller): (m: RenderMode)
    ensures m == HighPerfInteraction <==> ctl.highPerf && !ctl.isInteracting
    ensures m != HighPerfInteraction ==> m == QualityMode
  {
    if ctl.highPerf && !ctl.isInteracting then HighPerfInteraction else QualityMode
  }

  /**
   * The controller during an export: after `applyQualityMode`, and after
   * camera moves once `moved`; `Current` is the mode last called for.
   */
  predicate Exporting(ctl: Controller, c: Controller, moved: bool) {
    && c.highPerf == ctl.highPerf
    && c.isInteracting == (ctl.isInteracting || (ctl.highPerf && moved))
    && Current(c) == Some(if moved then ExportMode(ctl) else QualityMode)
  }

  /**
   * A camera move during an export, after `applyQualityMode`: it leaves the
   * view in the export's mode, interacting exactly when high performance is on
   * or the view was already interacting.
   */
  lemma CameraMoveDuringExport(ctl: Controller, c: Controller, moved: bool)
    requires Exporting(ctl, c, moved)
    ensures Exporting(ctl, Step(c, CamModified), true)
  {
  }

  /**
   * One pass of the export loop: move the view to frame `f`'s sample (a
   * camera move, hence a camera-modified event), capture it, encode it and
   * write the file. No file comes back when the capture or the write fails.
   */
  method ExportFrame(plan: Plan, f: nat, ctl: Controller,
                     capture: Shot -> Option<seq<byte>>, writeSucceeds: string -> bool)
    returns (next: Controller, shot: Shot, file: Option<FileWrite>)
    requires plan.view(f).camera.Some?
    ensures next == Step(ctl, CamModified)
    ensures shot == Shot(plan.view(f), Current(next))
    ensures file.Some? <==> capture(shot).Some? && writeSucceeds(plan.name(f))
    ensures file.Some? ==> file.value == FileFor(plan, f, shot, capture)
  {
    var view := plan.view(f);
    next := ctl;
    if view.camera.Some? {
      next := Step(next, CamModified);
    }
    shot := Shot(view, Current(next));
    var rgba := capture(shot);
    if rgba.None? {
      return next, shot, None;
    }
    var name := plan.name(f);
    var data := plan.encode(rgba.value);
    if !writeSucceeds(name) {
      return next, shot, None;
    }
    file := Some(FileWrite(name, data));
  }

  /**
   * One pass of the export loop over the frames so far: capture frame `f`
   * and, when that and its write succeed, add its file.
   */
  method ExportStep(plan: Plan, ctl: Controller, f: nat, c: Controller, shots: seq<Shot>, writes: seq<FileWrite>,
                    capture: Shot -> Option<seq<byte>>, writeSucceeds: string -> bool)
    returns (next: Controller, shots': seq<Shot>, writes': seq<FileWrite>, ok: bool)
    requires plan.view(f).camera.Some?
    requires shots == Shots(plan, f, ExportMode(ctl))
    requires writes == Files(plan, shots, capture)
    requires Saved(plan, shots, capture, writeSucceeds)
    requires Exporting(ctl, c, f > 0)
    ensures Exporting(ctl, next, true)
    ensures shots' == Shots(plan, f + 1, ExportMode(ctl)) && shots'[..f] == shots
    ensures ok ==> writes' == Files(plan, shots', capture) && Saved(plan, shots', capture, writeSucceeds)
    ensures !ok ==> writes' == writes && (capture(shots'[f]).None? || !writeSucceeds(plan.name(f)))
  {
    CameraMoveDuringExport(ctl, c, f > 0);
    var shot, file;
    next, shot, file := ExportFrame(plan, f, c, capture, writeSucceeds);
    shots' := shots + [shot];
    assert shots'[..f] == shots;
    if file.None? {
      return next, shots', writes, false;
    }
    writes' := writes + [file.value];
    ok := true;
  }

  /**
   * What an export over `plan` leaves behind, through the plan's reference
   * sequences: the shots are its first frames in `mode`, and the writes are
   * the files of the shots saved so far.
   */
  predicate Exported(plan: Plan, mode: RenderMode, shots: seq<Shot>, writes: seq<FileWrite>,
                     capture: Shot -> Option<seq<byte>>, writeSucceeds: string -> bool) {
    && |writes| <= |shots|
    && shots == Shots(plan, |shots|, mode)
    && writes == Files(plan, shots[..|writes|], capture)
    && Saved(plan, shots[..|writes|], capture, writeSucceeds)
  }

  /**
   * The export loop of `record`: apply the quality settings and, for each
   * frame in order, move the camera and slice to the frame's sample,
   * capture, encode and write the file, stopping at the first capture or
   * write that fails. The frames so far are stated through the reference
   * sequences `Shots` and `Files`.
   */
  method ExportFrames(plan: Plan, ctl: Controller,
                      capture: Shot -> Option<seq<byte>>, writeSucceeds: string -> bool)
    returns (outcome: Outcome, writes: seq<FileWrite>, shots: seq<Shot>, final: Controller)
    requires forall f: nat :: plan.view(f).camera.Some?
    ensures outcome == Completed || outcome.Failed?
    ensures outcome == Completed ==> |writes| == |shots| == plan.total
    ensures outcome.Failed? ==>
              && outcome.frame < plan.total
              && |writes| == outcome.frame && |shots| == outcome.frame + 1
              && (capture(shots[outcome.frame]).None? || !writeSucceeds(plan.name(outcome.frame)))
    ensures Exported(plan, ExportMode(ctl), shots, writes, capture, writeSucceeds)
    ensures final.highPerf == ctl.highPerf
  {
    final := Step(ctl, ApplyQualityMode);
    outcome := Completed;
    writes := [];
    shots := [];
    var f := 0;
    while f < plan.total
      invariant 0 <= f <= plan.total
      invariant shots == Shots(plan, f, ExportMode(ctl))
      invariant writes == Files(plan, shots, capture)
      invariant Saved(plan, shots, capture, writeSucceeds)
      invariant Exporting(ctl, final, f > 0)
    {
      var ok;
      ghost var before := shots;
      final, shots, writes, ok := ExportStep(plan, ctl, f, final, shots, writes, capture, writeSucceeds);
      if !ok {
        assert shots[..|writes|] == before;
        return Failed(f), writes, shots, final;
      }
      f := f + 1;
    }
    assert shots[..|writes|] == shots;
  }

  /** The plan of a job; with keyframes, every frame's view sets a camera. */
  function JobPlan(job: Job): (plan: Plan)
    ensures plan.total == TotalFrames(job)
    ensures |job.keyframes| >= 1 ==> forall f: nat :: plan.view(f).camera.Some?
  {
    Plan(TotalFrames(job), ViewsOf(job), NamesOf(), EncoderOf(job.width, job.height))
  }

  /** Frame `f`'s view, for every frame of the job. */
  function ViewsOf(job: Job): nat -> Applied {
    (f: nat) => FrameView(job, f)
  }

  /** Frame `f`'s file name. */
  function NamesOf(): nat -> string {
    (f: nat) => FrameName(f)
  }

  /** `encodeTGA` at the job's output size, as bytes. */
  function EncoderOf(width: nat, height: nat): seq<byte> -> seq<byte> {
    (rgba: seq<byte>) => EncodeBytes(width, height, rgba)
  }

  /** The plan of a job is a plan of the job: its views, names and encoder are the job's. */
  lemma JobPlanOf(job: Job)
    ensures PlanOf(JobPlan(job), job)
  {
  }

  /**
   * `record`: refuse without a folder or keyframes; otherwise apply the
   * quality settings and run the export loop over the job's plan, clearing
   * the recording flag on every path.
   *
   * Moving the camera is a camera-modified event for the quality
   * controller, so a frame is captured in whatever mode that event leaves
   * the view in. `RecordedFrames` reads `Exported` back frame by frame.
   */
  method Record(hasFolder: bool, job: Job, ctl: Controller,
                capture: Shot -> Option<seq<byte>>, writeSucceeds: string -> bool)
    returns (outcome: Outcome, writes: seq<FileWrite>, shots: seq<Shot>, final: Controller,
             isRecording: bool)
    ensures !isRecording
    ensures !hasFolder ==> outcome == NoFolder && writes == [] && shots == [] && final == ctl
    ensures hasFolder && |job.keyframes| == 0 ==>
              outcome == NoKeyframes && writes == [] && shots == [] && final == ctl
    ensures hasFolder && |job.keyframes| >= 1 ==>
              && (outcome == Completed || outcome.Failed?)
              && Exported(JobPlan(job), ExportMode(ctl), shots, writes, capture, writeSucceeds)
              && final.highPerf == ctl.highPerf
    ensures outcome == Completed ==> |writes| == |shots| == TotalFrames(job)
    ensures outcome.Failed? ==>
              && outcome.frame < TotalFrames(job)
              && |writes| == outcome.frame && |shots| == outcome.frame + 1
              && (capture(shots[outcome.frame]).None? || !writeSucceeds(FrameName(outcome.frame)))
  {
    isRecording := false;
    writes := [];
    shots := [];
    final := ctl;
    if !hasFolder {
      return NoFolder, writes, shots, final, isRecording;
    }
    if |job.keyframes| < 1 {
      return NoKeyframes, writes, shots, final, isRecording;
    }
    isRecording := true;
    var plan := JobPlan(job);
    outcome, writes, shots, final := ExportFrames(plan, ctl, capture, writeSucceeds);
    isRecording := false;
  }

  /** Frame `f` of the reference shots shows the keyframe sample at its own time. */
  lemma ShotFact(job: Job, plan: Plan, mode: RenderMode, n: nat, f: nat)
    requires PlanOf(plan, job)
    requires f < n
    ensures Shots(plan, n, mode)[f] == Shot(FrameView(job, f), Some(mode))
  {
    ShotsAt(plan, n, mode, f);
  }

  /** Frame `f` of saved shots was written under its name with its encoded capture. */
  lemma WriteFact(job: Job, plan: Plan, shots: seq<Shot>, capture: Shot -> Option<seq<byte>>,
                  writeSucceeds: string -> bool, f: nat)
    requires PlanOf(plan, job)
    requires f < |shots|
    requires Saved(plan, shots, capture, writeSucceeds)
    ensures Written(job, f, Files(plan, shots, capture)[f], shots[f], capture, writeSucceeds)
  {
    FilesAt(plan, shots, capture, f);
    SavedAt(plan, shots, capture, writeSucceeds, f);
  }

  /**
   * What an export over a job's plan leaves behind, frame by frame: each
   * shot shows the keyframe sample at its own frame's time, and each write
   * is its frame's file, named after the frame and holding the encoding of
   * its capture.
   */
  lemma RecordedFrames(job: Job, plan: Plan, mode: RenderMode, shots: seq<Shot>, writes: seq<FileWrite>,
                       capture: Shot -> Option<seq<byte>>, writeSucceeds: string -> bool)
    requires PlanOf(plan, job)
    requires Exported(plan, mode, shots, writes, capture, writeSucceeds)
    ensures ShowsSamples(job, shots, mode)
    ensures WritesFrames(job, writes, shots, capture, writeSucceeds)
  {
    forall f | 0 <= f < |shots|
      ensures shots[f] == Shot(FrameView(job, f), Some(mode))
    {
      ShotFact(job, plan, mode, |shots|, f);
    }
    forall f | 0 <= f < |writes|
      ensures Written(job, f, writes[f], shots[f], capture, writeSucceeds)
    {
      WriteFact(job, plan, shots[..|writes|], capture, writeSucceeds, f);
    }
  }

  /**
   * What `record` leaves behind on a job with keyframes, frame by frame:
   * each shot shows the keyframe sample at its frame's time, and each write
   * is its frame's file.
   */
  lemma RecordedJob(job: Job, mode: RenderMode, shots: seq<Shot>, writes: seq<FileWrite>,
                    capture: Shot -> Option<seq<byte>>, writeSucceeds: string -> bool)
    requires Exported(JobPlan(job), mode, shots, writes, capture, writeSucceeds)
    ensures ShowsSamples(job, shots, mode)
    ensures WritesFrames(job, writes, shots, capture, writeSucceeds)
  {
    JobPlanOf(job);
    RecordedFrames(job, JobPlan(job), mode, shots, writes, capture, writeSucceeds);
  }
}

=== FILE: tga.dfy ===
/**
 * The frame encoder: an uncompressed 32-bit true-colour TGA file
 * (Truevision TGA File Format Specification, version 2.0) with an 18-byte
 * header, image type 2, an image descriptor of 0x28 (8 alpha bits, top-left
 * origin) and a pixel body in B,G,R,A order derived from an R,G,B,A buffer by
 * swapping the red and blue channels.
 */
module Tga {
  import opened Basics

  type byte = x: int | 0 <= x < 256

  datatype EncodedImage = EncodedImage(width: nat, height: nat, data: seq<byte>)

  const HeaderLength: nat := 18
  const ImageTypeTrueColour: byte := 2
  const BitsPerPixel: byte := 32
  /** 8 bits of alpha (0x08) plus the top-left origin flag (0x20). */
  const ImageDescriptor: byte := 0x28

  /**
   * Channel `k` of the source buffer. The source reads past the end of a
   * short buffer as `undefined`, which a `Uint8Array` stores as 0.
   */
  function At(rgba: seq<byte>, k: nat): byte {
    if k < |rgba| then rgba[k] else 0
  }

  /** The four source bytes of pixel `i`, in R,G,B,A order. */
  function RgbaAt(rgba: seq<byte>, i: nat): (p: seq<byte>)
    ensures |p| == 4
  {
    [At(rgba, 4 * i), At(rgba, 4 * i + 1), At(rgba, 4 * i + 2), At(rgba, 4 * i + 3)]
  }

  /** Exchange channels 0 and 2 of a four-byte pixel: RGBA <-> BGRA. */
  function Swap(p: seq<byte>): (q: seq<byte>)
    requires |p| == 4
    ensures |q| == 4
    // blue, green, red, alpha
    ensures q[0] == p[2] && q[1] == p[1] && q[2] == p[0] && q[3] == p[3]
  {
    [p[2], p[1], p[0], p[3]]
  }

  /** The four bytes of pixel `i` in a packed four-channel buffer. */
  function Quad(s: seq<byte>, i: nat): seq<byte>
    requires 4 * i + 4 <= |s|
  {
    s[4 * i..4 * i + 4]
  }

  /** Low byte of a 16-bit little-endian field: `n & 0xff`. */
  function LowByte(n: nat): byte { n % 256 }

  /** High byte of a 16-bit little-endian field: `(n >> 8) & 0xff`. */
  function HighByte(n: nat): byte { (n / 256) % 256 }

  /** The value of a 16-bit little-endian field. */
  function Le16(lo: byte, hi: byte): nat { lo as int + 256 * hi as int }

  lemma LittleEndian16(n: nat)
    ensures Le16(LowByte(n), HighByte(n)) == n % 65536
  {
    var q := n / 65536;
    var r := n % 65536;
    assert n == 65536 * q + r;
    assert n / 256 == 256 * q + r / 256;
    assert (n / 256) % 256 == (r / 256) % 256;
    assert n % 256 == r % 256;
  }

  /** The 18-byte header of a 32-bit, top-left-origin true-colour image of the given size. */
  function Header(width: nat, height: nat): (h: seq<byte>)
    ensures |h| == HeaderLength
  {
    [0, 0, ImageTypeTrueColour,
     0, 0, 0, 0, 0,                          // colour-map specification
     0, 0, 0, 0,                             // x-origin, y-origin
     LowByte(width), HighByte(width),
     LowByte(height), HighByte(height),
     BitsPerPixel, ImageDescriptor]
  }

  /**
   * The header's fields: no image id, no colour map, image type 2, zero
   * origins, the width and height little-endian modulo 65536, 32 bits per
   * pixel and descriptor 0x28.
   */
  lemma HeaderLayout(width: nat, height: nat)
    ensures var h := Header(width, height);
            && h[0] == 0 && h[1] == 0 && h[2] == 2
            && (forall k :: 3 <= k < 12 ==> h[k] == 0)
            && Le16(h[12], h[13]) == width % 65536
            && Le16(h[14], h[15]) == height % 65536
            && h[16] == 32 && h[17] == 0x28
  {
    LittleEndian16(width);
    LittleEndian16(height);
  }

  /** The pixel body for the first `n` pixels: each pixel channel-swapped, in source order. */
  function Body(rgba: seq<byte>, n: nat): (b: seq<byte>)
    ensures |b| == 4 * n
  {
    if n == 0 then [] else Body(rgba, n - 1) + Swap(RgbaAt(rgba, n - 1))
  }

  /** Pixel `i` of the body is source pixel `i` with its red and blue channels exchanged. */
  lemma {:induction false} BodyPixels(rgba: seq<byte>, n: nat, i: nat)
    requires i < n
    ensures Quad(Body(rgba, n), i) == Swap(RgbaAt(rgba, i))
  {
    BodySplit(rgba, n);
    if i < n - 1 {
      BodyPixels(rgba, n - 1, i);
      assert Quad(Body(rgba, n), i) == Quad(Body(rgba, n - 1), i);
    }
  }

  /** The bytes of the encoded file: the 18-byte header, then the BGRA body of `width * height` pixels. */
  function EncodeBytes(width: nat, height: nat, rgba: seq<byte>): (data: seq<byte>)
    ensures |data| == HeaderLength + 4 * (width * height)
  {
    Header(width, height) + Body(rgba, width * height)
  }

  /** The encoded file splits back into the header and the body it was built from. */
  lemma EncodeLayout(width: nat, height: nat, rgba: seq<byte>)
    ensures var data := EncodeBytes(width, height, rgba);
            && data[..HeaderLength] == Header(width, height)
            && data[HeaderLength..] == Body(rgba, width * height)
  {
    var data := EncodeBytes(width, height, rgba);
    assert data[..HeaderLength] == Header(width, height);
    assert data[HeaderLength..] == Body(rgba, width * height);
  }

  /**
   * `encodeTGA`: the encoded bytes, returned with the width and height
   * they were encoded for.
   */
  function Encode(width: nat, height: nat, rgba: seq<byte>): EncodedImage {
    EncodedImage(width, height, EncodeBytes(width, height, rgba))
  }

  /**
   * The encoder as the source writes it: fill the body pixel by pixel in a
   * loop, then concatenate header and body.
   */
  method EncodeTga(width: nat, height: nat, rgba: seq<byte>) returns (img: EncodedImage)
    ensures img == Encode(width, height, rgba)
  {
    var header := Header(width, height);
    var pixelCount := width * height;
    var body: seq<byte> := [];
    var i := 0;
    while i < pixelCount
      invariant 0 <= i <= pixelCount
      invariant body == Body(rgba, i)
    {
      var r := At(rgba, i * 4 + 0);
      var g := At(rgba, i * 4 + 1);
      var b := At(rgba, i * 4 + 2);
      var a := At(rgba, i * 4 + 3);
      body := body + [b, g, r, a];
      i := i + 1;
    }
    img := EncodedImage(width, height, header + body);
  }

  // ---------------------------------------------------------------------
  // Decoding: the inverse the encoder's output is checked against.

  datatype Decoded = Decoded(width: nat, height: nat, rgba: seq<byte>)

  /** A stored B,G,R,A pixel read back as R,G,B,A. */
  function FromBgra(q: seq<byte>): (p: seq<byte>)
    requires |q| == 4
    ensures |p| == 4
  {
    var blue, green, red, alpha := q[0], q[1], q[2], q[3];
    [red, green, blue, alpha]
  }

  /** Read a body of whole B,G,R,A pixels back into R,G,B,A order. */
  function UnBody(b: seq<byte>): (rgba: seq<byte>)
    requires |b| % 4 == 0
    ensures |rgba| == |b|
    decreases |b|
  {
    if |b| == 0 then [] else UnBody(b[..|b| - 4]) + FromBgra(b[|b| - 4..])
  }

  /** The first `n` source pixels, with missing channels read as 0. */
  function Pixels(rgba: seq<byte>, n: nat): (p: seq<byte>)
    ensures |p| == 4 * n
  {
    if n == 0 then [] else Pixels(rgba, n - 1) + RgbaAt(rgba, n - 1)
  }

  /** Read a 32-bit uncompressed, top-left-origin TGA back into RGBA. */
  function Decode(data: seq<byte>): (d: Option<Decoded>)
    ensures d.Some? ==> |data| == HeaderLength + 4 * (d.value.width * d.value.height)
    ensures d.Some? ==> |d.value.rgba| == 4 * (d.value.width * d.value.height)
  {
    if |data| < HeaderLength then None
    else if data[..12] != [0, 0, 2, 0, 0, 0, 0, 0, 0, 0, 0, 0] then None
    else if data[16] != BitsPerPixel || data[17] != ImageDescriptor then None
    else
      var w: nat := Le16(data[12], data[13]);
      var h: nat := Le16(data[14], data[15]);
      if |data| != HeaderLength + 4 * (w * h) then None
      else Some(Decoded(w, h, UnBody(data[HeaderLength..])))
  }

  lemma {:induction false} SwapInvolution(p: seq<byte>)
    requires |p| == 4
    ensures Swap(Swap(p)) == p
  {
  }

  /** The body of `n` pixels is the body of the first `n - 1` followed by the last pixel, swapped. */
  lemma BodySplit(rgba: seq<byte>, n: nat)
    requires n > 0
    ensures Body(rgba, n)[..4 * n - 4] == Body(rgba, n - 1)
    ensures Body(rgba, n)[4 * n - 4..] == Swap(RgbaAt(rgba, n - 1))
  {
    var b := Body(rgba, n);
    assert b == Body(rgba, n - 1) + Swap(RgbaAt(rgba, n - 1));
  }

  /** Reading a swapped pixel as B,G,R,A gives back the source pixel. */
  lemma {:induction false} FromBgraSwap(p: seq<byte>)
    requires |p| == 4
    ensures FromBgra(Swap(p)) == p
  {
  }

  lemma {:induction false} UnBodyOfBody(rgba: seq<byte>, n: nat)
    ensures UnBody(Body(rgba, n)) == Pixels(rgba, n)
  {
    if n > 0 {
      BodySplit(rgba, n);
      UnBodyOfBody(rgba, n - 1);
      FromBgraSwap(RgbaAt(rgba, n - 1));
    }
  }

  lemma {:induction false} PixelsIsPrefix(rgba: seq<byte>, n: nat)
    requires 4 * n <= |rgba|
    ensures Pixels(rgba, n) == rgba[..4 * n]
  {
    if n > 0 {
      PixelsIsPrefix(rgba, n - 1);
      assert rgba[..4 * n] == rgba[..4 * (n - 1)] + RgbaAt(rgba, n - 1);
    }
  }

  /** A header for dimensions that fit its 16-bit fields passes every check of `Decode`. */
  lemma HeaderFields(width: nat, height: nat)
    requires width < 65536 && height < 65536
    ensures var h := Header(width, height);
            && h[..12] == [0, 0, 2, 0, 0, 0, 0, 0, 0, 0, 0, 0]
            && h[16] == BitsPerPixel && h[17] == ImageDescriptor
            && Le16(h[12], h[13]) == width && Le16(h[14], h[15]) == height
  {
    var h := Header(width, height);
    LittleEndian16(width);
    LittleEndian16(height);
    assert h[..12] == [h[0], h[1], h[2], h[3], h[4], h[5], h[6], h[7], h[8], h[9], h[10], h[11]];
  }

  /** A header followed by a body of the size it declares decodes to the unswapped body. */
  lemma DecodeFramed(width: nat, height: nat, body: seq<byte>)
    requires width < 65536 && height < 65536
    requires |body| == 4 * (width * height)
    ensures Decode(Header(width, height) + body) == Some(Decoded(width, height, UnBody(body)))
  {
    var data := Header(width, height) + body;
    HeaderFields(width, height);
    assert data[..HeaderLength] == Header(width, height);
    assert data[..12] == Header(width, height)[..12];
    assert data[HeaderLength..] == body;
  }

  /**
   * Round trip: decoding an encoded frame recovers its width, height and the
   * source pixels, whenever the dimensions fit the 16-bit header fields and
   * the buffer holds every pixel.
   */
  lemma DecodeEncode(width: nat, height: nat, rgba: seq<byte>)
    requires width < 65536 && height < 65536
    requires |rgba| >= 4 * (width * height)
    ensures Decode(Encode(width, height, rgba).data)
            == Some(Decoded(width, height, rgba[..4 * (width * height)]))
  {
    var n := width * height;
    var data := Encode(width, height, rgba).data;
    assert data == Header(width, height) + Body(rgba, n);
    DecodeFramed(width, height, Body(rgba, n));
    UnBodyOfBody(rgba, n);
    PixelsIsPrefix(rgba, n);
  }
}

=== FILE: view2d.dfy ===
/**
 * The 2D slice view's arithmetic: which axis it slices, wheel stepping
 * through slices, where it puts the camera and how far it zooms out, the
 * categorical label colours, and the overlay's opacity transfer function.
 *
 * The view's `sliceAxis` property is optional here: the application never
 * sets it, and every comparison against 'I', 'J' and 'K' is then false.
 */
module View2D {
  import opened Basics

  datatype Axis = I | J | K

  // ---------------------------------------------------------------------
  // Axis choices

  /** The dimension the wheel handler clamps against: I, J, K give 0, 1, 2; no axis falls to 2. */
  function AxisIndex(axis: Option<Axis>): (k: nat)
    ensures k <= 2
    ensures axis == Some(I) ==> k == 0
    ensures axis == Some(J) ==> k == 1
    ensures axis == Some(K) || axis.None? ==> k == 2
  {
    match axis
    case Some(I) => 0
    case Some(J) => 1
    case _ => 2
  }

  /** The mapper's slicing mode: the axis, or K when there is none. */
  function SlicingMode(axis: Option<Axis>): (a: Axis)
    ensures axis.Some? ==> a == axis.value
    ensures axis.None? ==> a == K
  {
    match axis
    case Some(a) => a
    case None => K
  }

  /** The axis the camera looks along: K, J, and otherwise I. */
  function CameraAxis(axis: Option<Axis>): (a: Axis)
    ensures axis.Some? ==> a == axis.value
    ensures axis.None? ==> a == I
  {
    match axis
    case Some(K) => K
    case Some(J) => J
    case _ => I
  }

  /** The dimensions spanned by the view's width and height when fitting the camera. */
  function FitIndices(axis: Option<Axis>): (wh: (nat, nat))
    ensures wh.0 == (if axis == Some(I) then 1 else 0)
    ensures wh.1 == (if axis == Some(K) then 1 else 2)
  {
    (if axis == Some(I) then 1 else 0, if axis == Some(K) then 1 else 2)
  }

  function Index(k: nat): Axis
    requires k <= 2
  {
    if k == 0 then I else if k == 1 then J else K
  }

  /**
   * For a set axis, the fit spans exactly the two in-plane dimensions: the
   * three indices are distinct, and slicing, wheel and camera agree.
   */
  lemma AxisChoicesAgree(a: Axis)
    ensures var wh := FitIndices(Some(a));
            && wh.0 != wh.1 && wh.0 != AxisIndex(Some(a)) && wh.1 != AxisIndex(Some(a))
            && Index(AxisIndex(Some(a))) == SlicingMode(Some(a)) == CameraAxis(Some(a))
  {
  }

  /**
   * With no axis set the choices disagree: the view slices along K and
   * clamps the wheel to K's depth, but the camera looks along I and the fit
   * spans dimensions 0 and 2, the latter being the sliced one.
   */
  lemma UnsetAxisDisagrees()
    ensures SlicingMode(None) == K && AxisIndex(None) == 2
    ensures CameraAxis(None) == I
    ensures FitIndices(None) == (0, 2)
  {
  }

  function DimAt(d: Dims, k: nat): int
    requires k <= 2
  {
    if k == 0 then d.nx else if k == 1 then d.ny else d.nz
  }

  function Component(v: Vec3, k: nat): real
    requires k <= 2
  {
    if k == 0 then v.x else if k == 1 then v.y else v.z
  }

  // ---------------------------------------------------------------------
  // Wheel navigation

  /**
   * The view's wheel handler: one slice down the axis for `deltaY > 0`, one
   * up otherwise, clamped into [0, dims[axis] - 1]; the change is reported
   * only when the slice actually moves.
   */
  function WheelSlice(sliceIndex: int, dims: Dims, axis: Option<Axis>, deltaY: real): (next: Option<int>)
    ensures next.Some? ==> next.value != sliceIndex
    ensures next.Some? && DimAt(dims, AxisIndex(axis)) >= 1 ==>
              0 <= next.value < DimAt(dims, AxisIndex(axis))
    ensures 0 <= sliceIndex < DimAt(dims, AxisIndex(axis)) ==>
              && (deltaY > 0.0 ==>
                    next == if sliceIndex + 1 < DimAt(dims, AxisIndex(axis)) then Some(sliceIndex + 1) else None)
              && (deltaY <= 0.0 ==> next == if sliceIndex > 0 then Some(sliceIndex - 1) else None)
  {
    var maxIdx := DimAt(dims, AxisIndex(axis)) - 1;
    var delta := if deltaY > 0.0 then 1 else -1;
    var atLeastZero := if sliceIndex + delta >= 0 then sliceIndex + delta else 0;
    var n := if atLeastZero <= maxIdx then atLeastZero else maxIdx;
    if n != sliceIndex then Some(n) else None
  }

  /** Scrolling down then up from an interior slice comes back to it. */
  lemma WheelThereAndBack(sliceIndex: int, dims: Dims, axis: Option<Axis>)
    requires 0 < sliceIndex + 1 < DimAt(dims, AxisIndex(axis))
    requires sliceIndex >= 0
    ensures var down := WheelSlice(sliceIndex, dims, axis, 1.0);
            down == Some(sliceIndex + 1) && WheelSlice(down.value, dims, axis, -1.0) == Some(sliceIndex)
  {
  }

  // ---------------------------------------------------------------------
  // Camera fit

  /** Where the camera sits, what it looks at, and how much of the plane it shows. */
  datatype Fit = Fit(focalPoint: Vec3, position: Vec3, viewUp: Vec3, parallelScale: real)

  /** How far in front of the slice plane the camera is placed. */
  const CameraDistance: real := 500.0

  function Extent(g: Geometry, k: nat): real
    requires k <= 2
  {
    DimAt(g.dims, k) as real * Component(g.spacing, k)
  }

  /** The volume's centre along dimension `k`. */
  function Centre(g: Geometry, k: nat): real
    requires k <= 2
  {
    Component(g.origin, k) + Extent(g, k) / 2.0
  }

  /** The world coordinate of slice `sliceIndex` along dimension `k`. */
  function SlicePlane(g: Geometry, k: nat, sliceIndex: int): real
    requires k <= 2
  {
    Component(g.origin, k) + sliceIndex as real * Component(g.spacing, k)
  }

  /**
   * The camera fit of the volume slice effect: look at the volume's centre
   * on the slice plane from 500 units along the camera axis, and show half
   * the larger of the two fitted extents.
   */
  function FitCamera(g: Geometry, axis: Option<Axis>, sliceIndex: int): (f: Fit)
    ensures var wh := FitIndices(axis);
            && f.parallelScale * 2.0 >= Extent(g, wh.0)
            && f.parallelScale * 2.0 >= Extent(g, wh.1)
            && (f.parallelScale * 2.0 == Extent(g, wh.0) || f.parallelScale * 2.0 == Extent(g, wh.1))
    ensures CameraAxis(axis) == K ==>
              && f.focalPoint.x == Centre(g, 0) && f.focalPoint.y == Centre(g, 1)
              && f.focalPoint.z == SlicePlane(g, 2, sliceIndex)
              && f.position == f.focalPoint.(z := f.focalPoint.z + CameraDistance)
              && f.viewUp == Vec3(0.0, 1.0, 0.0)
    ensures CameraAxis(axis) == J ==>
              && f.focalPoint.x == Centre(g, 0) && f.focalPoint.z == Centre(g, 2)
              && f.focalPoint.y == SlicePlane(g, 1, sliceIndex)
              && f.position == f.focalPoint.(y := f.focalPoint.y + CameraDistance)
              && f.viewUp == Vec3(0.0, 0.0, 1.0)
    ensures CameraAxis(axis) == I ==>
              && f.focalPoint.y == Centre(g, 1) && f.focalPoint.z == Centre(g, 2)
              && f.focalPoint.x == SlicePlane(g, 0, sliceIndex)
              && f.position == f.focalPoint.(x := f.focalPoint.x + CameraDistance)
              && f.viewUp == Vec3(0.0, 0.0, 1.0)
  {
    var cx := g.origin.x + (g.dims.nx as real * g.spacing.x) / 2.0;
    var cy := g.origin.y + (g.dims.ny as real * g.spacing.y) / 2.0;
    var cz := g.origin.z + (g.dims.nz as real * g.spacing.z) / 2.0;
    var worldI := g.origin.x + sliceIndex as real * g.spacing.x;
    var worldJ := g.origin.y + sliceIndex as real * g.spacing.y;
    var worldK := g.origin.z + sliceIndex as real * g.spacing.z;
    var wh := FitIndices(axis);
    var maxDim := Max(Extent(g, wh.0), Extent(g, wh.1));
    var scale := maxDim * 0.5;
    if axis == Some(K) then
      Fit(Vec3(cx, cy, worldK), Vec3(cx, cy, worldK + CameraDistance), Vec3(0.0, 1.0, 0.0), scale)
    else if axis == Some(J) then
      Fit(Vec3(cx, worldJ, cz), Vec3(cx, worldJ + CameraDistance, cz), Vec3(0.0, 0.0, 1.0), scale)
    else
      Fit(Vec3(worldI, cy, cz), Vec3(worldI + CameraDistance, cy, cz), Vec3(0.0, 0.0, 1.0), scale)
  }

  /**
   * Whatever the axis, including the unset one the application uses, the
   * camera looks at the slice plane along its own axis and at the volume's
   * centre in the other two dimensions.
   */
  lemma FitCentresVolume(g: Geometry, axis: Option<Axis>, sliceIndex: int)
    ensures var f := FitCamera(g, axis, sliceIndex);
            var c := AxisIndex(Some(CameraAxis(axis)));
            forall k :: 0 <= k <= 2 ==>
              Component(f.focalPoint, k) == if k == c then SlicePlane(g, k, sliceIndex) else Centre(g, k)
  {
    var f := FitCamera(g, axis, sliceIndex);
    var c := AxisIndex(Some(CameraAxis(axis)));
    forall k | 0 <= k <= 2
      ensures Component(f.focalPoint, k) == if k == c then SlicePlane(g, k, sliceIndex) else Centre(g, k)
    {
      if k == 0 {
        assert Component(f.focalPoint, k) == f.focalPoint.x;
      } else if k == 1 {
        assert Component(f.focalPoint, k) == f.focalPoint.y;
      } else {
        assert Component(f.focalPoint, k) == f.focalPoint.z;
      }
    }
  }

  // ---------------------------------------------------------------------
  // Label colours

  datatype Rgb = Rgb(r: real, g: real, b: real)

  const Black := Rgb(0.0, 0.0, 0.0)

  /** The ten categorical colours, cycled over the labels. */
  const Palette: seq<Rgb> := [
    Rgb(0.894, 0.102, 0.110), Rgb(0.216, 0.494, 0.722), Rgb(0.302, 0.686, 0.290),
    Rgb(0.596, 0.306, 0.639), Rgb(1.0, 0.498, 0.0), Rgb(1.0, 0.894, 0.184),
    Rgb(0.651, 0.337, 0.157), Rgb(0.969, 0.506, 0.749), Rgb(0.6, 0.6, 0.6),
    Rgb(0.121, 0.470, 0.705)]

  /** The highest label given its own control point. */
  const MaxLabel: nat := 255

  /**
   * The categorical colour transfer function as a table indexed by label:
   * 0 is black and label L in 1..255 takes palette entry (L - 1) mod 10.
   */
  function LabelColors(): (t: seq<Rgb>)
    ensures |t| == MaxLabel + 1
    ensures t[0] == Black
    ensures forall l :: 1 <= l <= MaxLabel ==> t[l] == Palette[(l - 1) % |Palette|]
  {
    seq(MaxLabel + 1, l requires 0 <= l <= MaxLabel => if l == 0 then Black else Palette[(l - 1) % |Palette|])
  }

  /** The colours repeat every ten labels, and ten consecutive labels never share one. */
  lemma LabelColorsCycle()
    ensures forall l :: 1 <= l && l + 10 <= MaxLabel ==> LabelColors()[l] == LabelColors()[l + 10]
    ensures forall l, m :: 1 <= l < m < l + 10 && m <= MaxLabel ==> LabelColors()[l] != LabelColors()[m]
    ensures forall l :: 1 <= l <= MaxLabel ==> LabelColors()[l] != Black
  {
    var t := LabelColors();
    forall l | 1 <= l && l + 10 <= MaxLabel
      ensures t[l] == t[l + 10]
    {
      assert (l + 10 - 1) % 10 == (l - 1) % 10;
    }
    forall l, m | 1 <= l < m < l + 10 && m <= MaxLabel
      ensures t[l] != t[m]
    {
      assert (l - 1) % 10 != (m - 1) % 10;
    }
  }

  // ---------------------------------------------------------------------
  // Overlay opacity

  /** The gap above 0 after which a probability or label value is fully weighted. */
  const Eps: real := 0.0001

  /**
   * The overlay's scalar opacity points: (0, 0) first, then the clamped
   * slider opacity up to 1 for probability fields and masks, or up to 255
   * for labels. `overlayOpacity` is the slider's value when the overlay
   * effect last ran; a later slider move does not rebuild the points.
   */
  function OverlayOpacityPoints(colormap: Colormap, overlayOpacity: real): (pts: seq<(real, real)>)
    ensures |pts| >= 2 && pts[0] == (0.0, 0.0)
    ensures forall k :: 1 <= k < |pts| ==> pts[k].1 == Clamp01(overlayOpacity)
    ensures forall k :: 0 <= k < |pts| - 1 ==> pts[k].0 < pts[k + 1].0
    ensures pts[|pts| - 1].0 == (if colormap == Categorical then 255.0 else 1.0)
    ensures colormap != Binary ==> |pts| == 3 && pts[1] == (Eps, Clamp01(overlayOpacity))
    ensures colormap == Binary ==> |pts| == 2
  {
    var alpha := Clamp01(overlayOpacity);
    match colormap
    case Prob => [(0.0, 0.0), (Eps, alpha), (1.0, alpha)]
    case Binary => [(0.0, 0.0), (1.0, alpha)]
    case Categorical => [(0.0, 0.0), (Eps, alpha), (255.0, alpha)]
  }

  /**
   * The opacity a piecewise-linear transfer function gives the value `x`:
   * the first point's opacity at or below it, the last point's beyond it,
   * and linear interpolation between neighbouring points.
   */
  function Evaluate(pts: seq<(real, real)>, x: real): real
    requires |pts| >= 1
    decreases |pts|
  {
    if |pts| == 1 || x <= pts[0].0 then pts[0].1
    else if x <= pts[1].0 then
      pts[0].1 + (pts[1].1 - pts[0].1) * (x - pts[0].0) / (pts[1].0 - pts[0].0)
    else Evaluate(pts[1..], x)
  }

  /**
   * What the overlay's opacity points mean: background 0 is transparent;
   * for probability fields and label maps every value from `Eps` up gets
   * the full slider opacity, and for masks the opacity ramps linearly up to
   * it at 1.
   */
  lemma OverlayOpacityAt(colormap: Colormap, overlayOpacity: real)
    ensures var pts := OverlayOpacityPoints(colormap, overlayOpacity);
            var alpha := Clamp01(overlayOpacity);
            && Evaluate(pts, 0.0) == 0.0
            && (colormap != Binary ==> forall x :: x >= Eps ==> Evaluate(pts, x) == alpha)
            && (colormap == Binary ==> forall x :: 0.0 <= x <= 1.0 ==> Evaluate(pts, x) == alpha * x)
            && (colormap == Binary ==> forall x :: x >= 1.0 ==> Evaluate(pts, x) == alpha)
  {
    var pts := OverlayOpacityPoints(colormap, overlayOpacity);
    var alpha := Clamp01(overlayOpacity);
    if colormap != Binary {
      forall x | x >= Eps
        ensures Evaluate(pts, x) == alpha
      {
        if x > Eps {
          var rest := pts[1..];
          assert rest == [(Eps, alpha), (pts[2].0, alpha)];
          assert Evaluate(pts, x) == Evaluate(rest, x);
          if x <= rest[1].0 {
            assert (rest[1].1 - rest[0].1) == 0.0;
          } else {
            assert Evaluate(rest, x) == Evaluate(rest[1..], x);
          }
        }
      }
    } else {
      forall x | x > 1.0
        ensures Evaluate(pts, x) == alpha
      {
        assert Evaluate(pts, x) == Evaluate(pts[1..], x);
      }
    }
  }
}
